=== FILE: README.md ===
# preprocess_markdown, modelled in Dafny

`GeneratePDF.py` converts a Markdown file to PDF. Before the converter runs,
`preprocess_markdown` rewrites the Markdown so that LaTeX can typeset it. It
returns the rewritten text and a fixed LaTeX header. It works in seven stages:

1. Literal `str.replace` fixes for `.cursor\rules` and `%libraryPath%\library…`.
2. `%NAME%` environment references become `percentNAMEpercent`.
3. Fenced code blocks are replaced by `___CODEBLOCK_k___` placeholders. The blocks are kept in a list.
4. Inline code spans are replaced by `___INLINECODE_k___` placeholders, and kept the same way.
5. An escape pass: one `re.sub` per entry of a 17-entry table. Each pattern is guarded by `(?<!___)…(?!___)`.
6. The inline spans are restored as `\text{…}`.
7. The fenced blocks are restored as `verbatim` environments, with backslashes and braces escaped.

The modules follow those stages:

| module | file | stages |
|---|---|---|
| `Strings` | `strings.dfy` | `str.replace`, counting, decimal rendering |
| `Scan` | `scan.dfy` | leftmost non-overlapping scanning, as `re.sub` does it; placeholder tokens |
| `Fixes` | `fixes.dfy` | stages 1–2 |
| `Protect` | `protect.dfy` | stages 3–4 |
| `Escape` | `escape.dfy` | stage 5: the template expansion, the guarded substitution, the table |
| `EscapeOutcome` | `escape_outcome.dfy` | what stage 5 does to any text |
| `Restore` | `restore.dfy` | stages 6–7 |
| `Preprocess` | `preprocess.dfy` | the composition and the header |

## What the proofs establish

**The placeholders never survive the escape pass.** The placeholders are
meant to mark the protected spans. But `___` is three `_` characters, and
the `_` entry escapes every `_` except one that comes right after `___` or
right before `___` in the text the entry reads. So `a__b` becomes
`a\_\_b`, and `x____y` becomes `x_\_\__y`: the outer two `_` are each next
to a run of three and are kept. After that entry, every interior `_` of the
text has a `\` or a `_` neighbour. None of the later entries undoes this.
`___INLINECODE_0___` therefore cannot occur in the result: its `_` before
the digit has a letter on one side and a digit on the other. The guard the
loop builds at line 124 does not do what the comment at line 123 says it
does.

The consequences:

- Both restore loops never find their tokens (`Preprocess.RestorationNeverFires`).
- The returned content is exactly the escape pass applied to the masked text.
- The text of every code span and block is lost. `` `a` `` and `` `b` ``
  give the same output (`Preprocess.InlineCodeIsLost`).
- The `file_extension` entry can never match, so it is dead
  (`EscapeOutcome.FileExtensionEntryIsDead`).

**How the replacement strings are read.** `re.sub` reads each replacement as
a template, so the table's entries are not inserted literally:

- `'\\\\'` (the two characters `\\`) becomes a single `\`, so the backslash
  entry changes nothing (`Escape.BackslashRuleIsIdentity`).
- `'\\textless{}'` begins with `\t`, which the template turns into a TAB
  character. So `<` becomes TAB followed by `extless{}`, and likewise for the
  other five `\text…{}` entries.
- `\{`, `\#`, `\_` and the rest keep their backslash.

`Escape.EscapeRulesExpandTemplates` proves these expansions from the raw
table.

**Masking loses nothing, but the restore loops are no inverse of it.** On
text without `___` of its own, the stored spans put back where their
placeholders stand give the text before extraction
(`Protect.ExtractFencedRoundTrip`, `Protect.ExtractInlineRoundTrip`). The
restore loops do not put them back that way. They call `str.replace` once
per token, in order, over the whole text. The closing `___` of one token, a
text such as `INLINECODE_0`, and the opening `___` of the next token spell
token 0 again (`Restore.TokenFormsAcrossNeighbours`). The loop for token 0
then replaces that occurrence as well, and cuts into the two real tokens
around it. `Scan.Splice` is therefore a positional reading of the masked
text, not the source's loop.

**The code and its comments disagree in other places too.** The two
branches of the `file_extension` test in the inline restore are identical
(`Restore.InlineLatexIgnoresFileExtension`). The language tag of a fenced
block is computed but never used (`Restore.RestoreFencedIgnoresTag`).

`\w` is the parameter `word: char -> bool` of the members that need it.

## Model

| member | source | states |
|---|---|---|
| Fixes.LiteralPatternsHoldBackslash | GeneratePDF.py:67-73 | every one of the five literal patterns is non-empty and contains a backslash |
| Fixes.LiteralFixes | GeneratePDF.py:67-73 | the five literal replacements in order; specified by `Fixes.LiteralFixesNeedBackslash` |
| Fixes.LiteralFixesNeedBackslash | GeneratePDF.py:67-73 | text without a backslash passes the five literal replacements unchanged |
| Fixes.PercentMatch | GeneratePDF.py:76 | a match of `%([A-Za-z0-9_]+)%` at the start has the shape `%`, one or more name characters, `%`, and never overruns the text |
| Fixes.PercentMatchComplete | GeneratePDF.py:76 | the matcher fails exactly when no prefix of the text is a `%NAME%` reference |
| Fixes.PercentMatchesAreVars | GeneratePDF.py:76-77 | every text the substitution rewrites is a `%NAME%` reference |
| Fixes.RenderPercent | GeneratePDF.py:77 | each match rendered as `percent\1percent`, other text copied; specified by `Fixes.PercentRewriteStep`, `Fixes.PercentRewriteVar` and `Fixes.PercentRewriteDropsTwoPerMatch` |
| Fixes.PercentRewrite | GeneratePDF.py:76-77 | the `%NAME%` substitution; specified by `Fixes.PercentRewriteStep`, `Fixes.PercentRewriteDropsTwoPerMatch` and `Fixes.PercentRewriteIdentity` |
| Fixes.PercentRewriteKeepsPlain | GeneratePDF.py:76-77 | text without `%` in front of the rest is copied as it stands |
| Fixes.PercentMatchOfVar | GeneratePDF.py:76 | the pattern matches a written-out `%NAME%` reference whole, whatever follows it |
| Fixes.PercentRewriteVar | GeneratePDF.py:76-77 | a reference `%NAME%` at the start becomes `percentNAMEpercent`, and the rest is rewritten after it |
| Fixes.PercentRewriteStep | GeneratePDF.py:76-77 | text without `%`, then `%NAME%`, then the rest, becomes that text, `percentNAMEpercent` and the rewritten rest |
| Fixes.PercentVarCount | GeneratePDF.py:77 | a reference holds two `%` signs, and its `percentNAMEpercent` rewrite holds none |
| Fixes.PercentRewriteDropsTwoPerMatch | GeneratePDF.py:76-77 | the rewrite removes exactly two `%` per reference found and no other `%` |
| Fixes.PercentRewriteIdentity | GeneratePDF.py:76-77 | no match is found iff the pattern fails at every position; the text is unchanged exactly when nothing matched |
| Fixes.FixesNeedPercentOrBackslash | GeneratePDF.py:67-77 | text with neither `%` nor backslash leaves stages 1 and 2 unchanged |
| Scan.Tokenize | GeneratePDF.py:87 | the leftmost non-overlapping scan loses nothing: its pieces put back together give the text scanned; its positions are stated by `Scan.TokenizeAt` |
| Scan.RunStopsAt | GeneratePDF.py:76 | a greedy run covers exactly the prefix whose characters all qualify, up to the first that does not |
| Scan.TokenizeSuffix | GeneratePDF.py:87 | the pieces after any prefix of the scan are the scan of the text after what that prefix covers |
| Scan.TokenizeAt | GeneratePDF.py:87 | at every position the scan reaches, a character is copied only where the matcher fails there, and otherwise the piece is the match starting there |
| Scan.MatchIndex | GeneratePDF.py:80-84 | a match piece is the match numbered by the count of matches before it |
| Scan.TokenizeStoresAt | GeneratePDF.py:80-87 | a match the scan reaches at position j is the text starting at j of the matcher's length, stored under the number of matches before it |
| Scan.TokenizeMatchesSatisfy | GeneratePDF.py:87 | every matched text has the shape the matcher guarantees |
| Scan.TokenizeNoMatches | GeneratePDF.py:87 | the scan records no match exactly when the matcher fails at every position |
| Scan.PlaceholderInjective | GeneratePDF.py:82 | distinct indices give distinct `___KIND_k___` tokens |
| Scan.PlaceholderNumbering | GeneratePDF.py:80-84 | the span stored at list index n is the n-th match, and placeholder n stands in its place in the text |
| Scan.MaskedWithoutMatches | GeneratePDF.py:87 | with nothing matched, masking leaves the text unchanged |
| Scan.Placeholder | GeneratePDF.py:82 | the `f"___CODEBLOCK_{k}___"` and `f"___INLINECODE_{k}___"` tokens; specified by `Scan.PlaceholderInjective` |
| Scan.Masked | GeneratePDF.py:80-97 | the text with every match replaced by the next numbered token; specified by `Scan.PlaceholderNumbering` and `Scan.SpliceMasked` |
| Scan.SpliceMasked | GeneratePDF.py:80-97 | on text without `___`, reading the masked text left to right and putting span k where token k stands gives the original text |
| Strings.ReplaceAll | GeneratePDF.py:67 | Python's `str.replace`, scanning left to right without overlaps; specified by `Strings.ReplaceAllAbsent` and `Strings.ReplaceAllStep` |
| Strings.ReplaceAllAbsent | GeneratePDF.py:67 | `str.replace` leaves text without the pattern unchanged |
| Strings.ReplaceAllStep | GeneratePDF.py:67 | the first occurrence is replaced, the text before it kept, and the replacing goes on after it |
| Strings.DecimalRoundTrip | GeneratePDF.py:82 | the decimal rendering in the f-string reads back as the number |
| Protect.FenceMatch | GeneratePDF.py:87 | a match of the lazy fence pattern is a block that opens with a fence and closes at the first fence three or more characters in; it fails iff no such closing fence exists |
| Protect.FenceMatchSomewhere | GeneratePDF.py:87 | the fence pattern matches somewhere iff a fence is followed, three characters on or later, by another |
| Protect.ExtractFenced | GeneratePDF.py:80-87 | every stored block is a fenced block; nothing is stored iff no fence is closed; when nothing is stored the text is unchanged; which blocks are stored is stated by `Protect.FencesAreLeftmost` |
| Protect.FencesAreLeftmost | GeneratePDF.py:80-87 | at every position the scan reaches, either no block starts there and the character is kept, or the lazy match starting there is stored under the number of blocks before it |
| Protect.InlineMatch | GeneratePDF.py:97 | a match of `` `[^`]+` `` is a backtick, one or more non-backticks and a backtick |
| Protect.InlineMatchComplete | GeneratePDF.py:97 | the inline matcher fails exactly when no prefix has the span shape |
| Protect.InlineMatchSomewhere | GeneratePDF.py:97 | the inline pattern matches somewhere iff some substring has the span shape |
| Protect.ExtractInline | GeneratePDF.py:90-97 | every stored span has the span shape; nothing is stored iff no substring has it; when nothing is stored the text is unchanged; which spans are stored is stated by `Protect.InlineSpansAreLeftmost` |
| Protect.InlineSpansAreLeftmost | GeneratePDF.py:90-97 | at every position the scan reaches, either no span starts there and the character is kept, or the span starting there is stored under the number of spans before it |
| Protect.InlineNeedsBacktick | GeneratePDF.py:97 | text without a backtick is returned unchanged with no spans |
| Protect.ExtractFencedRoundTrip | GeneratePDF.py:80-87 | on text without `___`, splicing the stored blocks back in at their placeholders gives the text before extraction |
| Protect.ExtractInlineRoundTrip | GeneratePDF.py:90-97 | the same for the inline spans |
| Escape.ExpandTemplate | GeneratePDF.py:125 | Python's reading of a replacement template; specified by `Escape.ExpandPlain`, `Escape.KeptEscape`, `Escape.KnownEscapeExpands`, `Escape.OctalEscape`, `Escape.NulEscape`, `Escape.GroupReferenceEscape` and `Escape.BadEscapes` |
| Escape.ExpandPlain | GeneratePDF.py:125 | a template without a backslash is inserted as written |
| Escape.KeptEscape | GeneratePDF.py:125 | a backslash before a character that is no escape, letter or digit is inserted together with that character |
| Escape.OctalNumber | GeneratePDF.py:125 | octal digits read as a number stay below eight to the power of their count |
| Escape.PlainPrefix | GeneratePDF.py:125 | backslash-free text in front of a template is inserted as written, and the reading goes on after it |
| Escape.KnownEscapeExpands | GeneratePDF.py:125 | a known escape such as `\n` or `\t` is replaced by its character, the text around it kept |
| Escape.OctalEscape | GeneratePDF.py:125 | a backslash and three octal digits, the first not `0`, become the character with that code, and are an error above 0o377 |
| Escape.NulEscape | GeneratePDF.py:125 | `\0` and at most two more octal digits become the character with the code the digits give, a third digit not taken |
| Escape.GroupReferenceEscape | GeneratePDF.py:125 | `\g`, and a digit that starts neither `\0` nor three octal digits, make the template a group reference, whatever follows |
| Escape.BadEscapes | GeneratePDF.py:125 | an ASCII letter with no meaning after a backslash, or a backslash at the end, is an error |
| Escape.OctalEscapes | GeneratePDF.py:125 | four instances: `\101` gives `A`, `\400` is an error, `\0101` gives the character 0o10 followed by `1`, and `\18` is a group reference |
| Escape.TextCommandExpands | GeneratePDF.py:110-115 | a `\text…{}` template expands to TAB followed by `ext…{}` |
| Escape.EscapeRulesExpandTemplates | GeneratePDF.py:100-125 | the effective replacements are the table's templates as `re.sub` expands them, with the keys in the table's order |
| Escape.GuardedSubIdle | GeneratePDF.py:124-125 | a guarded substitution with no unblocked match leaves the text unchanged |
| Escape.SubFromIdle | GeneratePDF.py:124-125 | a scan that finds no unblocked match from position i on copies the rest of the text |
| Escape.BackslashRuleIsIdentity | GeneratePDF.py:101 | the backslash entry replaces `\` by `\`, so it changes nothing |
| Escape.SingleCharRuleIsPointwise | GeneratePDF.py:124-125 | a one-character entry rewrites each character on its own: a key is replaced unless its neighbours are guarded, and every other character is kept |
| Escape.ApplyRules | GeneratePDF.py:122-125 | the loop over the dict; specified by `Escape.ApplyRulesConcat` and `Escape.ApplyRulesIdle` |
| Escape.ApplyRulesConcat | GeneratePDF.py:122-125 | the entries act one after another, each on the previous entry's output |
| Escape.EscapePass | GeneratePDF.py:100-125 | the escape stage; specified by `Escape.EscapeWithoutKeys` and `EscapeOutcome.EscapePassShields` |
| Escape.KeyRank | GeneratePDF.py:101-116 | the first sixteen keys are single characters, in the table's order |
| Escape.RepRank | GeneratePDF.py:101-116 | every character an entry inserts is a key of that entry or of an earlier one, or no key at all |
| Escape.RulesNeverReescape | GeneratePDF.py:100-125 | no replacement contains the key of a later entry, so no inserted character is escaped again |
| Escape.ApplyRulesIdle | GeneratePDF.py:122-125 | entries whose key characters are absent leave the text unchanged |
| Escape.EscapeWithoutKeys | GeneratePDF.py:100-125 | text with none of the key characters passes the escape pass unchanged |
| Escape.UnderscoreRuleShieldsFrom | GeneratePDF.py:108 | after the `_` entry, no interior `_` lacks a `\` or `_` neighbour |
| Escape.OtherRulesKeepShield | GeneratePDF.py:109-116 | the entries after `_` keep that property |
| Escape.FileExtensionRuleIdle | GeneratePDF.py:118 | on such text the `file_extension` entry never matches |
| Escape.ShapedPassShields | GeneratePDF.py:100-125 | any table of this shape yields text in which every interior `_` is shielded, and its last entry has no effect |
| Escape.ShieldedTextHasNoPlaceholder | GeneratePDF.py:82 | text in which every interior `_` is shielded contains no placeholder token |
| EscapeOutcome.EscapePassShields | GeneratePDF.py:100-125 | the escape pass's output has every interior `_` shielded |
| EscapeOutcome.FileExtensionEntryIsDead | GeneratePDF.py:118-125 | the pass equals the pass without its `file_extension` entry |
| EscapeOutcome.EscapeBreaksPlaceholders | GeneratePDF.py:120-125 | no inline or block placeholder survives the escape pass |
| Restore.InlineLatex | GeneratePDF.py:130-137 | the LaTeX for an inline span; specified by `Restore.InlineLatexIgnoresFileExtension` and `Restore.InlineLatexKeepsContent` |
| Restore.InlineLatexIgnoresFileExtension | GeneratePDF.py:130-137 | both branches give the span's content between `\text{` and `}` |
| Restore.InlineLatexKeepsContent | GeneratePDF.py:130-137 | the LaTeX is five characters longer than the span and gives the span back when its backticks are restored |
| Restore.RestoreInline | GeneratePDF.py:128-139 | when none of the remaining tokens occurs, the text is left as it is |
| Restore.RestoreInlineReplacesToken | GeneratePDF.py:128-139 | one pass of the loop: the first occurrence of token i becomes the LaTeX of span i, the text before it is kept, later copies are replaced too, and the loop goes on with i + 1 |
| Restore.TokenFormsAcrossNeighbours | GeneratePDF.py:139 | the closing `___` of one token, the text `KIND_i` and the opening `___` of the next token contain token i |
| Restore.FenceParts | GeneratePDF.py:144-146 | the groups of the block pattern; specified by `Restore.FencePartsOfSource` and `Restore.FencePartsShape` |
| Restore.FencePartsOfSource | GeneratePDF.py:144-146 | the block pattern splits a block built from a word-character tag and code into that tag and that code |
| Restore.FencePartsShape | GeneratePDF.py:144-146 | conversely, a split tag consists of word characters, the code holds no fence, and the block starts with fence, tag, newline, code, fence |
| Restore.EscapeBraces | GeneratePDF.py:155-156 | the three escapes of a block's code; specified by `Restore.EscapeBracesIsPerChar` and `Restore.EscapeBracesRoundTrip` |
| Restore.EscapeBracesIsPerChar | GeneratePDF.py:155-156 | the three replacements act character by character: `\` becomes `\textbackslash{}`, `{` and `}` gain a backslash |
| Restore.EscapeBracesRoundTrip | GeneratePDF.py:155-156 | the escaping is reversible: unescaping gives the code back |
| Restore.CodeEscape | GeneratePDF.py:151-156 | the `.cursor` fixes, then the escapes; specified by `Restore.VerbatimBlockKeepsCode` |
| Restore.VerbatimBlock | GeneratePDF.py:159 | the `verbatim` environment around the escaped code; specified by `Restore.VerbatimBlockKeepsCode` |
| Restore.VerbatimBlockKeepsCode | GeneratePDF.py:151-159 | code without either `.cursor` path is only escaped, and the text between the environment's lines reads back as the code |
| Restore.RestoreBlock | GeneratePDF.py:143-161 | one pass of the loop leaves text without token i as it is; specified by `Restore.RestoreFencedReplacesToken` and `Restore.RestoreBlockIgnoresTag` |
| Restore.RestoreFenced | GeneratePDF.py:142-161 | when none of the remaining tokens occurs, the text is left as it is; a block without an opening fence or without a newline is skipped (`Restore.RestoreFencedSkipsRejected`); any other block `Restore.FenceParts` rejects is skipped by `Restore.RestoreBlock` |
| Restore.FencePartsNeedNewline | GeneratePDF.py:144-145 | the block pattern fails on a block that does not open with a fence or holds no newline |
| Restore.RestoreFencedSkipsRejected | GeneratePDF.py:142-161 | a block that does not open with a fence or holds no newline is skipped: its token is left wherever it stands and the loop goes on with the next block |
| Restore.RestoreBlockIgnoresTag | GeneratePDF.py:144-161 | two blocks that differ only in their tag make the same pass of the loop |
| Restore.RestoreFencedReplacesToken | GeneratePDF.py:142-161 | one pass of the loop for a block written as tag, newline and code: the first occurrence of token i becomes the verbatim environment for that code, later copies are replaced too, and the loop goes on with i + 1 |
| Restore.RestoreFencedIgnoresTag | GeneratePDF.py:142-161 | changing the tag of any one stored block leaves the restored text as it was |
| Preprocess.MaskedText | GeneratePDF.py:66-97 | the text the escape pass receives; specified by `Preprocess.OneCharSpanMasked` and `Preprocess.RestorationNeverFires` |
| Preprocess.PreprocessMarkdown | GeneratePDF.py:164-192 | the header returned is the fixed header |
| Preprocess.RestorationNeverFires | GeneratePDF.py:59-192 | the content is the escape pass of the masked text, and holds no placeholder |
| Preprocess.OutputIgnoresSpans | GeneratePDF.py:80-161 | documents with equal masked texts give equal content, whatever their code |
| Preprocess.EmptyInput | GeneratePDF.py:59-192 | empty input gives empty content |
| Preprocess.OneCharSpanMasked | GeneratePDF.py:90-97 | a document that is a one-character span is masked to the first inline placeholder |
| Preprocess.InlineCodeIsLost | GeneratePDF.py:59-192 | `` `c` `` and `` `d` `` give the same content |

## Left out

- `main` (lines 195-499) is not modelled, for two reasons:
  - Reading the chapter files, writing the temporary Markdown and header files, and removing them afterwards are I/O.
  - The chain of `pypandoc` conversions and their fallbacks are calls to external programs.
- The logging set-up, the `logger.debug` calls (lines 61 and 191) and the `pypandoc` import guard (lines 44-56) are left out: they do not affect the result.
- Strings.ReplaceAll: requires a non-empty pattern; `str.replace` with an empty pattern is never called here.
- Escape.ExpandTemplate: group references (`\g<…>`, `\1`) are detected but not expanded, because no escape-table template contains one. Octal escapes are expanded. The `percent\1percent` template of line 77 is rendered directly by `Fixes.RenderPercent`.
- Escape.OctalEscape, Escape.NulEscape, Escape.KnownEscapeExpands: each states one escape with backslash-free text around it. A template with several escapes is read by the same definition, but no lemma chains the statements.
- Escape.EscapeWithoutKeys: states the key-free case for whole texts. The character-by-character form is stated per entry by `Escape.SingleCharRuleIsPointwise`.
- `\w` is Unicode-aware in Python. Here it is the parameter `word`, and only `!word('\n')` is assumed, as a precondition of `Preprocess.PreprocessMarkdown` and of the lemmas about it.
- The value of `lang.strip() or 'text'` (line 148) is never used, so the model does not compute it.
- The model keeps the source's behaviour. It has no corrected escaper that would keep the placeholders intact.

=== FILE: escape.dfy ===
/** Stage five: the guarded escape pass. Each entry of the replacement dict is
    applied, in insertion order, as one `re.sub` of the pattern
    `(?<!___)(key)(?!___)` over the previous entry's output. The replacement
    goes through `re.sub`, so it is a template, and Python's template escapes
    apply to it. */
module Escape {
  import opened Strings
  import opened Scan

  // ---------------------------------------------------------------------------
  // Replacement templates
  // ---------------------------------------------------------------------------

  /** An entry of the dict as written: the key and the replacement string
      value (after Python's literal escapes, before `re.sub` reads it as a
      template). */
  datatype RawRule = RawRule(key: string, template: string)

  /** The value `'\\text' + name + '{}'` of the dict, as Python holds it: a
      backslash followed by `text`. */
  function TextCommand(name: string): string
  {
    "\\text" + name + "{}"
  }

  const RawRules: seq<RawRule> := [
    RawRule("\\", "\\\\"),
    RawRule("{", "\\{"),
    RawRule("}", "\\}"),
    RawRule("#", "\\#"),
    RawRule("$", "\\$"),
    RawRule("%", "\\%"),
    RawRule("&", "\\&"),
    RawRule("_", "\\_"),
    RawRule("^", "\\^"),
    RawRule("~", TextCommand("asciitilde")),
    RawRule("<", TextCommand("less")),
    RawRule(">", TextCommand("greater")),
    RawRule("|", TextCommand("bar")),
    RawRule("\"", TextCommand("quotedbl")),
    RawRule("'", TextCommand("quotesingle")),
    RawRule("`", "\\`"),
    RawRule("file_extension", "file\\_extension")
  ]

  /** What `re.sub` makes of a template: the text it inserts, or the error it
      raises. */
  datatype Expansion = Expanded(text: string) | BadEscape | GroupReference

  predicate IsAsciiLetter(c: char)
  {
    'A' <= c <= 'Z' || 'a' <= c <= 'z'
  }

  /** The one-character escapes a template understands: `\a \b \f \n \r \t
      \v` and `\\`. */
  function KnownEscape(c: char): Option<char>
  {
    if c == 'a' then Some('\U{0007}')
    else if c == 'b' then Some('\U{0008}')
    else if c == 'f' then Some('\U{000C}')
    else if c == 'n' then Some('\n')
    else if c == 'r' then Some('\r')
    else if c == 't' then Some('\t')
    else if c == 'v' then Some('\U{000B}')
    else if c == '\\' then Some('\\')
    else None
  }

  function Prepend(p: string, x: Expansion): Expansion
  {
    if x.Expanded? then Expanded(p + x.text) else x
  }

  predicate IsOctalDigit(c: char)
  {
    '0' <= c <= '7'
  }

  function OctalValue(c: char): nat
    requires IsOctalDigit(c)
  {
    c as int - '0' as int
  }

  /** Python's reading of a replacement template from index `i` on: a known
      escape becomes its character, a backslash before any other non-letter
      stays as written (both characters), a backslash before another ASCII
      letter or at the end is an error. `\0` and up to two more octal digits,
      or three octal digits starting with `1`-`7`, are an octal escape (an
      error above 0o377); `\g` and any other digit introduce a group
      reference. */
  function ExpandFrom(t: string, i: nat): Expansion
    decreases |t| - i
  {
    if i >= |t| then Expanded([])
    else if t[i] != '\\' then Prepend([t[i]], ExpandFrom(t, i + 1))
    else if i + 1 == |t| then BadEscape
    else
      var c := t[i + 1];
      if c == 'g' then GroupReference
      else if c == '0' then
        var one := i + 2 < |t| && IsOctalDigit(t[i + 2]);
        var two := one && i + 3 < |t| && IsOctalDigit(t[i + 3]);
        if two then Prepend([(8 * OctalValue(t[i + 2]) + OctalValue(t[i + 3])) as char], ExpandFrom(t, i + 4))
        else if one then Prepend([OctalValue(t[i + 2]) as char], ExpandFrom(t, i + 3))
        else Prepend(['\U{0000}'], ExpandFrom(t, i + 2))
      else if IsDigit(c) then
        if IsOctalDigit(c) && i + 3 < |t| && IsOctalDigit(t[i + 2]) && IsOctalDigit(t[i + 3]) then
          var v := 64 * OctalValue(c) + 8 * OctalValue(t[i + 2]) + OctalValue(t[i + 3]);
          if v > 0xFF then BadEscape else Prepend([v as char], ExpandFrom(t, i + 4))
        else GroupReference
      else if KnownEscape(c).Some? then Prepend([KnownEscape(c).value], ExpandFrom(t, i + 2))
      else if IsAsciiLetter(c) then BadEscape
      else Prepend(['\\', c], ExpandFrom(t, i + 2))
  }

  function ExpandTemplate(t: string): Expansion
  {
    ExpandFrom(t, 0)
  }

  lemma {:induction false} ExpandPlainFrom(t: string, i: nat)
    requires i <= |t|
    requires forall k :: i <= k < |t| ==> t[k] != '\\'
    ensures ExpandFrom(t, i) == Expanded(t[i..])
    decreases |t| - i
  {
    if i < |t| {
      ExpandPlainFrom(t, i + 1);
      assert t[i..] == [t[i]] + t[i + 1..];
    }
  }

  /** Digits after a backslash: three octal digits give the character with
      that code, up to 0o377; `\0` takes at most two more; a digit that does
      not start an octal escape is a group reference. */
  lemma OctalEscapes()
    ensures ExpandTemplate("\\101") == Expanded("A")
    ensures ExpandTemplate("\\400") == BadEscape
    ensures ExpandTemplate("\\0101") == Expanded("\U{0008}1")
    ensures ExpandTemplate("\\18") == GroupReference
  {
  }

  /** The powers of eight. */
  function Pow8(n: nat): nat
  {
    if n == 0 then 1 else 8 * Pow8(n - 1)
  }

  /** Octal digits read as a number, most significant first; it stays below
      `8` to the number of digits. */
  function OctalNumber(ds: string): (v: nat)
    requires forall k :: 0 <= k < |ds| ==> IsOctalDigit(ds[k])
    ensures v < Pow8(|ds|)
  {
    if ds == [] then 0 else 8 * OctalNumber(ds[..|ds| - 1]) + OctalValue(ds[|ds| - 1])
  }

  /** Text without a backslash in front of the rest is copied and the rest
      read from where it starts. */
  lemma PlainPrefix(a: string, t: string)
    requires '\\' !in a && |a| <= |t| && t[..|a|] == a
    ensures ExpandTemplate(t) == Prepend(a, ExpandFrom(t, |a|))
  {
    assert forall k :: 0 <= k < |a| ==> t[k] == a[k];
    ExpandPlainUpTo(t, 0, |a|);
    assert t[0..|a|] == a;
  }

  /** The three readings above, one after the other. */
  lemma ExpandChain(t: string, a: string, i: nat, j: nat, c: string, b: string)
    requires ExpandTemplate(t) == Prepend(a, ExpandFrom(t, i))
    requires ExpandFrom(t, i) == Prepend(c, ExpandFrom(t, j))
    requires ExpandFrom(t, j) == Expanded(b)
    ensures ExpandTemplate(t) == Expanded(a + c + b)
  {
    assert a + (c + b) == a + c + b;
  }

  lemma ThreeOctalDigits(ds: string)
    requires |ds| == 3 && forall k :: 0 <= k < 3 ==> IsOctalDigit(ds[k])
    ensures OctalNumber(ds) == 64 * OctalValue(ds[0]) + 8 * OctalValue(ds[1]) + OctalValue(ds[2])
  {
    FewOctalDigits(ds[..2]);
    assert OctalNumber(ds) == 8 * (8 * OctalValue(ds[0]) + OctalValue(ds[1])) + OctalValue(ds[2]);
  }

  lemma FewOctalDigits(ds: string)
    requires |ds| <= 2 && forall k :: 0 <= k < |ds| ==> IsOctalDigit(ds[k])
    ensures |ds| == 0 ==> OctalNumber(ds) == 0
    ensures |ds| == 1 ==> OctalNumber(ds) == OctalValue(ds[0])
    ensures |ds| == 2 ==> OctalNumber(ds) == 8 * OctalValue(ds[0]) + OctalValue(ds[1])
  {
    if |ds| == 2 {
      assert ds[..1] == [ds[0]] && [ds[0]][..0] == [];
    } else if |ds| == 1 {
      assert ds[..0] == [];
    }
  }

  /** The reading at a three-digit octal escape. */
  lemma OctalAt(t: string, i: nat)
    requires i + 4 <= |t| && t[i] == '\\' && '1' <= t[i + 1] <= '7' && IsOctalDigit(t[i + 2]) && IsOctalDigit(t[i + 3])
    ensures OctalNumber(t[i + 1..i + 4]) > 0xFF ==> ExpandFrom(t, i) == BadEscape
    ensures OctalNumber(t[i + 1..i + 4]) <= 0xFF ==>
              ExpandFrom(t, i) == Prepend([OctalNumber(t[i + 1..i + 4]) as char], ExpandFrom(t, i + 4))
  {
    ThreeOctalDigits(t[i + 1..i + 4]);
  }

  /** The reading at `\0` followed by `n` octal digits and no more. */
  lemma NulAt(t: string, i: nat, n: nat)
    requires n <= 2 && i + 2 + n <= |t| && t[i] == '\\' && t[i + 1] == '0'
    requires forall k :: i + 2 <= k < i + 2 + n ==> IsOctalDigit(t[k])
    requires n < 2 && i + 2 + n < |t| ==> !IsOctalDigit(t[i + 2 + n])
    ensures OctalNumber(t[i + 2..i + 2 + n]) < 64
    ensures ExpandFrom(t, i) == Prepend([OctalNumber(t[i + 2..i + 2 + n]) as char], ExpandFrom(t, i + 2 + n))
  {
    FewOctalDigits(t[i + 2..i + 2 + n]);
  }

  /** Three octal digits after a backslash, the first not `0`, are one
      character with that code, and an error above `0o377`. */
  lemma OctalEscape(a: string, ds: string, b: string)
    requires '\\' !in a && '\\' !in b
    requires |ds| == 3 && '1' <= ds[0] <= '7' && forall k :: 0 <= k < 3 ==> IsOctalDigit(ds[k])
    ensures OctalNumber(ds) > 0xFF ==> ExpandTemplate(a + ['\\'] + ds + b) == BadEscape
    ensures OctalNumber(ds) <= 0xFF ==> ExpandTemplate(a + ['\\'] + ds + b) == Expanded(a + [OctalNumber(ds) as char] + b)
  {
    var t := a + ['\\'] + ds + b;
    var i := |a|;
    EscapeLayout(a, ['\\'], ds, b, t);
    assert t[i] == '\\' && t[i + 1..i + 4] == ds;
    PlainPrefix(a, t);
    OctalAt(t, i);
    var v := OctalNumber(t[i + 1..i + 4]);
    if v <= 0xFF {
      PlainTail(t, i + 4, b);
      ExpandChain(t, a, i, i + 4, [v as char], b);
    }
  }

  /** `\0` and at most two more octal digits are one character with the
      code the digits give; a third octal digit is not taken. */
  lemma NulEscape(a: string, ds: string, b: string)
    requires '\\' !in a && '\\' !in b
    requires |ds| <= 2 && forall k :: 0 <= k < |ds| ==> IsOctalDigit(ds[k])
    requires |ds| < 2 && |b| > 0 ==> !IsOctalDigit(b[0])
    ensures OctalNumber(ds) < 64
    ensures ExpandTemplate(a + ['\\', '0'] + ds + b) == Expanded(a + [OctalNumber(ds) as char] + b)
  {
    var t := a + ['\\', '0'] + ds + b;
    EscapeLayout(a, ['\\', '0'], ds, b, t);
    NulReading(t, a, ds, b, |a|, |ds|);
  }

  /** The reading of a text laid out as `a`, `\0`, `ds` and `b`. */
  lemma NulReading(t: string, a: string, ds: string, b: string, i: nat, n: nat)
    requires '\\' !in a && '\\' !in b
    requires i == |a| && n == |ds| && n <= 2 && forall k :: 0 <= k < n ==> IsOctalDigit(ds[k])
    requires i + 2 + n <= |t| && t[..i] == a && t[i] == '\\' && t[i + 1] == '0'
    requires t[i + 2..i + 2 + n] == ds && t[i + 2 + n..] == b
    requires forall k :: i + 2 <= k < i + 2 + n ==> IsOctalDigit(t[k])
    requires n < 2 && i + 2 + n < |t| ==> !IsOctalDigit(t[i + 2 + n])
    ensures ExpandTemplate(t) == Expanded(a + [OctalNumber(ds) as char] + b)
  {
    PlainPrefix(a, t);
    NulAt(t, i, n);
    PlainTail(t, i + 2 + n, b);
    ExpandChain(t, a, i, i + 2 + n, [OctalNumber(t[i + 2..i + 2 + n]) as char], b);
  }

  /** Where the pieces of `a + p + ds + b` sit. */
  lemma EscapeLayout(a: string, p: string, ds: string, b: string, t: string)
    requires t == a + p + ds + b
    ensures |a| + |p| + |ds| <= |t| && t[..|a|] == a
    ensures forall k :: 0 <= k < |p| ==> t[|a| + k] == p[k]
    ensures t[|a| + |p|..|a| + |p| + |ds|] == ds && t[|a| + |p| + |ds|..] == b
    ensures forall k :: |a| + |p| <= k < |a| + |p| + |ds| ==> t[k] == ds[k - (|a| + |p|)]
    ensures |a| + |p| + |ds| < |t| ==> t[|a| + |p| + |ds|] == b[0]
  {
  }

  /** Where the pieces of `a + p + b` sit. */
  lemma PairLayout(a: string, p: string, b: string, t: string)
    requires t == a + p + b
    ensures |a| + |p| <= |t| && t[..|a|] == a && t[|a| + |p|..] == b
    ensures forall k :: 0 <= k < |p| ==> t[|a| + k] == p[k]
  {
  }

  /** A tail without backslashes is read as written. */
  lemma PlainTail(t: string, j: nat, b: string)
    requires j <= |t| && t[j..] == b && '\\' !in b
    ensures ExpandFrom(t, j) == Expanded(b)
  {
    assert forall k :: j <= k < |t| ==> t[k] == b[k - j];
    ExpandPlainFrom(t, j);
  }

  /** A known escape is replaced by its character. */
  lemma KnownEscapeExpands(a: string, c: char, b: string)
    requires '\\' !in a && '\\' !in b
    requires KnownEscape(c).Some?
    ensures ExpandTemplate(a + ['\\', c] + b) == Expanded(a + [KnownEscape(c).value] + b)
  {
    var t := a + ['\\', c] + b;
    var i := |a|;
    PairLayout(a, ['\\', c], b, t);
    assert t[i] == '\\' && t[i + 1] == c;
    PlainPrefix(a, t);
    PlainTail(t, i + 2, b);
    ExpandChain(t, a, i, i + 2, [KnownEscape(c).value], b);
  }

  /** `\g`, and a digit that starts neither `\0` nor three octal digits,
      refer to a group, whatever follows. */
  lemma GroupReferenceEscape(a: string, c: char, b: string)
    requires '\\' !in a
    requires c == 'g' || (IsDigit(c) && c != '0' && !(IsOctalDigit(c) && |b| >= 2 && IsOctalDigit(b[0]) && IsOctalDigit(b[1])))
    ensures ExpandTemplate(a + ['\\', c] + b) == GroupReference
  {
    var t := a + ['\\', c] + b;
    var i := |a|;
    PairLayout(a, ['\\', c], b, t);
    assert t[i] == '\\' && t[i + 1] == c;
    assert |b| >= 2 ==> t[i + 2] == b[0] && t[i + 3] == b[1];
    PlainPrefix(a, t);
  }

  /** An ASCII letter with no meaning after a backslash is an error, and so
      is a backslash at the end. */
  lemma BadEscapes(a: string, c: char, b: string)
    requires '\\' !in a
    requires IsAsciiLetter(c) && c != 'g' && KnownEscape(c).None?
    ensures ExpandTemplate(a + ['\\', c] + b) == BadEscape
    ensures ExpandTemplate(a + ['\\']) == BadEscape
  {
    var t := a + ['\\', c] + b;
    PairLayout(a, ['\\', c], b, t);
    assert t[|a|] == '\\' && t[|a| + 1] == c;
    PlainPrefix(a, t);
    var u := a + ['\\'];
    assert u[..|a|] == a && u[|a|] == '\\';
    PlainPrefix(a, u);
  }

  /** A template without backslashes is inserted as it stands. */
  lemma ExpandPlain(t: string)
    requires '\\' !in t
    ensures ExpandTemplate(t) == Expanded(t)
  {
    ExpandPlainFrom(t, 0);
  }

  /** An entry as `re.sub` applies it: the key, and the text it inserts. */
  datatype Rule = Rule(key: string, rep: string)

  /** What `re.sub` inserts for `TextCommand(name)`: `\t` is read as a TAB, so
      the text is a TAB, then `ext`, the name and `{}`. */
  function TextRep(name: string): string
  {
    "\text" + name + "{}"
  }

  /** The dict with each template expanded. `\\` inserts one backslash, so the
      backslash entry is the identity; `\{`, `\#`, `\_` and the like keep both
      characters. */
  const EscapeRules: seq<Rule> := [
    Rule("\\", "\\"),
    Rule("{", "\\{"),
    Rule("}", "\\}"),
    Rule("#", "\\#"),
    Rule("$", "\\$"),
    Rule("%", "\\%"),
    Rule("&", "\\&"),
    Rule("_", "\\_"),
    Rule("^", "\\^"),
    Rule("~", TextRep("asciitilde")),
    Rule("<", TextRep("less")),
    Rule(">", TextRep("greater")),
    Rule("|", TextRep("bar")),
    Rule("\"", TextRep("quotedbl")),
    Rule("'", TextRep("quotesingle")),
    Rule("`", "\\`"),
    Rule("file_extension", "file\\_extension")
  ]

  lemma TextCommandExpands(name: string)
    requires '\\' !in name
    ensures ExpandTemplate(TextCommand(name)) == Expanded(TextRep(name))
  {
    var t := TextCommand(name);
    assert t[0] == '\\' && t[1] == 't';
    assert t[2..] == "ext" + name + "{}";
    ExpandPlainFrom(t, 2);
    assert ['\t'] + ("ext" + name + "{}") == TextRep(name);
  }

  /** A backslash before a character that is no escape, letter or digit is
      kept together with that character. */
  lemma KeptEscape(a: string, c: char, b: string)
    requires '\\' !in a && '\\' !in b
    requires KnownEscape(c).None? && !IsAsciiLetter(c) && !IsDigit(c)
    ensures ExpandTemplate(a + ['\\', c] + b) == Expanded(a + ['\\', c] + b)
  {
    var t := a + ['\\', c] + b;
    ExpandPlainUpTo(t, 0, |a|);
    assert t[|a| + 2..] == b;
    ExpandPlainFrom(t, |a| + 2);
    assert t[..|a|] == a;
  }

  lemma {:induction false} ExpandPlainUpTo(t: string, i: nat, j: nat)
    requires i <= j <= |t|
    requires forall k :: i <= k < j ==> t[k] != '\\'
    ensures ExpandFrom(t, i) == Prepend(t[i..j], ExpandFrom(t, j))
    decreases j - i
  {
    if i < j {
      ExpandPlainUpTo(t, i + 1, j);
      ExpandPlainStep(t, i);
      PrependPrepend([t[i]], t[i + 1..j], ExpandFrom(t, j));
      SliceCons(t, i, j);
    } else {
      assert t[i..j] == [];
    }
  }

  /** A character other than `\` is copied in front of the rest. */
  lemma ExpandPlainStep(t: string, i: nat)
    requires i < |t| && t[i] != '\\'
    ensures ExpandFrom(t, i) == Prepend([t[i]], ExpandFrom(t, i + 1))
  {
  }

  lemma PrependPrepend(a: string, b: string, x: Expansion)
    ensures Prepend(a, Prepend(b, x)) == Prepend(a + b, x)
  {
    if x.Expanded? {
      assert a + (b + x.text) == a + b + x.text;
    }
  }

  lemma SliceCons(t: string, i: nat, j: nat)
    requires i < j <= |t|
    ensures t[i..j] == [t[i]] + t[i + 1..j]
  {
  }

  lemma ShortEntriesExpand(i: nat)
    requires i < 9 || i == 15
    ensures EscapeRules[i].key == RawRules[i].key
    ensures ExpandTemplate(RawRules[i].template) == Expanded(EscapeRules[i].rep)
  {
    if i > 0 {
      var c := RawRules[i].key[0];
      assert RawRules[i].template == [] + ['\\', c] + [];
      KeptEscape([], c, []);
    }
  }

  lemma FileEntryExpands()
    ensures EscapeRules[16].key == RawRules[16].key
    ensures ExpandTemplate(RawRules[16].template) == Expanded(EscapeRules[16].rep)
  {
    assert RawRules[16].template == "file" + ['\\', '_'] + "extension";
    KeptEscape("file", '_', "extension");
  }

  lemma TextEntriesExpand(i: nat)
    requires 9 <= i < 15
    ensures EscapeRules[i].key == RawRules[i].key
    ensures ExpandTemplate(RawRules[i].template) == Expanded(EscapeRules[i].rep)
  {
    if i == 9 {
      TextCommandExpands("asciitilde");
    } else if i == 10 {
      TextCommandExpands("less");
    } else if i == 11 {
      TextCommandExpands("greater");
    } else if i == 12 {
      TextCommandExpands("bar");
    } else if i == 13 {
      TextCommandExpands("quotedbl");
    } else {
      TextCommandExpands("quotesingle");
    }
  }

  /** The effective table is exactly the dict with Python's template reading
      applied to every replacement: no entry raises, and none refers to a
      group. */
  lemma EscapeRulesExpandTemplates()
    ensures |EscapeRules| == |RawRules|
    ensures forall i :: 0 <= i < |RawRules| ==>
      EscapeRules[i].key == RawRules[i].key && ExpandTemplate(RawRules[i].template) == Expanded(EscapeRules[i].rep)
  {
    forall i | 0 <= i < |RawRules|
      ensures EscapeRules[i].key == RawRules[i].key && ExpandTemplate(RawRules[i].template) == Expanded(EscapeRules[i].rep)
    {
      if 9 <= i < 15 {
        TextEntriesExpand(i);
      } else if i == 16 {
        FileEntryExpands();
      } else {
        ShortEntriesExpand(i);
      }
    }
  }

  // ---------------------------------------------------------------------------
  // One guarded substitution
  // ---------------------------------------------------------------------------

  /** The lookarounds refuse an occurrence of length `n` at `i` when `___`
      ends right before it or starts right after it. */
  predicate Blocked(s: string, i: int, n: nat)
  {
    StartsAt(s, Guard, i - 3) || StartsAt(s, Guard, i + n)
  }

  predicate RuleMatchAt(s: string, key: string, i: int)
  {
    StartsAt(s, key, i) && !Blocked(s, i, |key|)
  }

  /** `re.sub` of the guarded pattern over `s`, from index `i` on. The
      lookarounds read `s` itself, never the partly rewritten text. */
  function SubFrom(s: string, key: string, rep: string, i: nat): string
    requires |key| > 0
    decreases |s| - i
  {
    if i >= |s| then []
    else if RuleMatchAt(s, key, i) then rep + SubFrom(s, key, rep, i + |key|)
    else [s[i]] + SubFrom(s, key, rep, i + 1)
  }

  lemma {:induction false} SubFromIdle(s: string, key: string, rep: string, i: nat)
    requires |key| > 0 && i <= |s|
    requires forall j :: i <= j < |s| ==> !RuleMatchAt(s, key, j)
    ensures SubFrom(s, key, rep, i) == s[i..]
    decreases |s| - i
  {
    if i < |s| {
      SubFromIdle(s, key, rep, i + 1);
      assert s[i..] == [s[i]] + s[i + 1..];
    }
  }

  /** `re.sub('(?<!___)(' + re.escape(key) + ')(?!___)', rep, s)`. */
  function GuardedSub(s: string, key: string, rep: string): (r: string)
    requires |key| > 0
  {
    SubFrom(s, key, rep, 0)
  }

  /** A guarded substitution with no unblocked match leaves the text as it is. */
  lemma GuardedSubIdle(s: string, key: string, rep: string)
    requires |key| > 0
    requires forall i :: 0 <= i < |s| ==> !RuleMatchAt(s, key, i)
    ensures GuardedSub(s, key, rep) == s
  {
    SubFromIdle(s, key, rep, 0);
  }

  /** The backslash entry inserts a single backslash for a backslash: it never
      changes anything, guarded or not. */
  lemma {:induction false} BackslashRuleIsIdentity(s: string, i: nat)
    requires i <= |s|
    ensures SubFrom(s, "\\", "\\", i) == s[i..]
    decreases |s| - i
  {
    if i < |s| {
      BackslashRuleIsIdentity(s, i + 1);
      assert s[i..] == [s[i]] + s[i + 1..];
      if RuleMatchAt(s, "\\", i) {
        assert s[i..i + 1] == "\\";
        assert [s[i]] == "\\";
      }
    }
  }

  /** What a one-character entry makes of the character at index `i`. */
  function PointPiece(s: string, c: char, rep: string, i: nat): string
    requires i < |s|
  {
    if s[i] == c && !Blocked(s, i, 1) then rep else [s[i]]
  }

  /** The pieces `PointPiece(s, c, rep, k)` for `k` from `i` to the end. */
  function PointPieces(s: string, c: char, rep: string, i: nat): (ps: seq<string>)
    requires i <= |s|
    ensures |ps| == |s| - i
    ensures forall k :: 0 <= k < |ps| ==> ps[k] == PointPiece(s, c, rep, i + k)
    decreases |s| - i
  {
    if i == |s| then [] else [PointPiece(s, c, rep, i)] + PointPieces(s, c, rep, i + 1)
  }

  lemma {:induction false} PointwiseFrom(s: string, c: char, rep: string, i: nat)
    requires i <= |s|
    ensures SubFrom(s, [c], rep, i) == Flatten(PointPieces(s, c, rep, i))
    decreases |s| - i
  {
    if i < |s| {
      PointwiseFrom(s, c, rep, i + 1);
      PointPiecesStep(s, c, rep, i);
      SubFromPointStep(s, c, rep, i);
    }
  }

  lemma PointPiecesStep(s: string, c: char, rep: string, i: nat)
    requires i < |s|
    ensures Flatten(PointPieces(s, c, rep, i)) == PointPiece(s, c, rep, i) + Flatten(PointPieces(s, c, rep, i + 1))
  {
    var parts := PointPieces(s, c, rep, i);
    assert parts[1..] == PointPieces(s, c, rep, i + 1);
  }

  /** One step of the scan with a one-character key is the piece for that
      character. */
  lemma SubFromPointStep(s: string, c: char, rep: string, i: nat)
    requires i < |s|
    ensures SubFrom(s, [c], rep, i) == PointPiece(s, c, rep, i) + SubFrom(s, [c], rep, i + 1)
  {
    OneCharMatch(s, c, i);
    assert |[c]| == 1;
  }

  /** A one-character key matches where that character stands unguarded. */
  lemma OneCharMatch(s: string, c: char, i: nat)
    requires i < |s|
    ensures RuleMatchAt(s, [c], i) <==> s[i] == c && !Blocked(s, i, 1)
  {
    assert s[i..i + 1] == [s[i]];
  }

  /** With a one-character key, occurrences do not interact: the output is
      each input character in turn, replaced when it is the key and neither
      `___` ends right before it nor starts right after it, copied otherwise. */
  lemma SingleCharRuleIsPointwise(s: string, c: char, rep: string)
    ensures GuardedSub(s, [c], rep) == Flatten(PointPieces(s, c, rep, 0))
  {
    PointwiseFrom(s, c, rep, 0);
  }

  // ---------------------------------------------------------------------------
  // The whole pass
  // ---------------------------------------------------------------------------

  ghost predicate WellKeyed(rules: seq<Rule>)
  {
    forall i :: 0 <= i < |rules| ==> |rules[i].key| > 0
  }

  /** The loop over the dict: each entry is one pass over the previous one's
      output. */
  function ApplyRules(s: string, rules: seq<Rule>): string
    requires WellKeyed(rules)
    decreases |rules|
  {
    if rules == [] then s else ApplyRules(GuardedSub(s, rules[0].key, rules[0].rep), rules[1..])
  }

  lemma {:induction false} ApplyRulesConcat(s: string, a: seq<Rule>, b: seq<Rule>)
    requires WellKeyed(a) && WellKeyed(b)
    ensures WellKeyed(a + b)
    ensures ApplyRules(s, a + b) == ApplyRules(ApplyRules(s, a), b)
    decreases |a|
  {
    if a == [] {
      assert a + b == b;
    } else {
      assert (a + b)[0] == a[0];
      assert (a + b)[1..] == a[1..] + b;
      ApplyRulesConcat(GuardedSub(s, a[0].key, a[0].rep), a[1..], b);
    }
  }

  /** The escape stage: every entry of the table, in order. */
  function EscapePass(s: string): string
  {
    assert WellKeyed(EscapeRules);
    ApplyRules(s, EscapeRules)
  }

  /** The sixteen one-character keys, in the order of their entries. */
  const SingleKeys: string := "\\{}#$%&_^~<>|\"'`"

  predicate IsEscapeKey(c: char)
  {
    c in SingleKeys
  }

  /** The index of the entry whose key is `c`, -1 for other characters. */
  function KeyIndex(c: char): int
  {
    if c == '\\' then 0 else if c == '{' then 1 else if c == '}' then 2
    else if c == '#' then 3 else if c == '$' then 4 else if c == '%' then 5
    else if c == '&' then 6 else if c == '_' then 7 else if c == '^' then 8
    else if c == '~' then 9 else if c == '<' then 10 else if c == '>' then 11
    else if c == '|' then 12 else if c == '"' then 13 else if c == '\'' then 14
    else if c == '`' then 15 else -1
  }

  /** The key of entry `i` is `SingleKeys[i]`, whose index is `i`. */
  lemma KeyRank(i: nat)
    requires i < 16
    ensures EscapeRules[i].key == [SingleKeys[i]] && KeyIndex(SingleKeys[i]) == i
  {
  }

  /** Lower-case letters and braces: the body of a `\text...{}` command. */
  predicate CommandChar(x: char)
  {
    'a' <= x <= 'z' || x == '{' || x == '}'
  }

  /** A TAB followed by a command body. */
  lemma TextRepShape(name: string)
    requires forall k :: 0 <= k < |name| ==> 'a' <= name[k] <= 'z'
    ensures |TextRep(name)| > 0 && TextRep(name)[0] == '\t'
    ensures forall k :: 1 <= k < |TextRep(name)| ==> CommandChar(TextRep(name)[k])
  {
    var r := TextRep(name);
    forall k | 1 <= k < |r| ensures CommandChar(r[k]) {
      if k < 4 {
        assert r[k] == "ext"[k - 1];
      } else if k < 4 + |name| {
        assert r[k] == name[k - 4];
      } else {
        assert r[k] == "{}"[k - 4 - |name|];
      }
    }
  }

  /** Entries 9 to 14 insert a TAB and then a command body. */
  lemma TextRepsShape(i: nat)
    requires 9 <= i < 15
    ensures |EscapeRules[i].rep| > 0 && EscapeRules[i].rep[0] == '\t'
    ensures forall k :: 1 <= k < |EscapeRules[i].rep| ==> CommandChar(EscapeRules[i].rep[k])
  {
    if i == 9 {
      TextRepShape("asciitilde");
    } else if i == 10 {
      TextRepShape("less");
    } else if i == 11 {
      TextRepShape("greater");
    } else if i == 12 {
      TextRepShape("bar");
    } else if i == 13 {
      TextRepShape("quotedbl");
    } else {
      TextRepShape("quotesingle");
    }
  }

  /** Every special character entry `i < 16` inserts belongs to an entry that
      has already run, and none of them inserts an `f`. */
  lemma RepRank(i: nat)
    requires i < 16
    ensures forall k :: 0 <= k < |EscapeRules[i].rep| ==> KeyIndex(EscapeRules[i].rep[k]) <= i
    ensures 'f' !in EscapeRules[i].rep
  {
    if 9 <= i < 15 {
      TextRepRank(i);
    } else {
      ShortRepRank(i);
    }
  }

  lemma TextRepRank(i: nat)
    requires 9 <= i < 15
    ensures forall k :: 0 <= k < |EscapeRules[i].rep| ==> KeyIndex(EscapeRules[i].rep[k]) <= i
    ensures 'f' !in EscapeRules[i].rep
  {
    KeyRank(i);
    var r := EscapeRules[i].rep;
    TextRepsShape(i);
    forall k | 0 <= k < |r| ensures KeyIndex(r[k]) <= i && r[k] != 'f' {
      if k > 0 {
        assert CommandChar(r[k]);
      }
    }
  }

  lemma ShortRepRank(i: nat)
    requires i < 9 || i == 15
    ensures forall k :: 0 <= k < |EscapeRules[i].rep| ==> KeyIndex(EscapeRules[i].rep[k]) <= i
    ensures 'f' !in EscapeRules[i].rep
  {
    KeyRank(i);
    var r := EscapeRules[i].rep;
    if i == 0 {
      assert r == ['\\'];
    } else {
      assert r == ['\\', SingleKeys[i]];
      assert forall k :: 0 <= k < |r| ==> r[k] == '\\' || r[k] == SingleKeys[i];
    }
  }

  /** No entry inserts a key of a later entry: every special character a
      replacement brings in (`\`, `{`, `}`, `_`, or its own key) belongs to an
      entry that has already run. */
  lemma RulesNeverReescape()
    ensures forall i, j :: 0 <= i < j < |EscapeRules| ==> !Contains(EscapeRules[i].rep, EscapeRules[j].key)
  {
    forall i, j | 0 <= i < j < |EscapeRules|
      ensures !Contains(EscapeRules[i].rep, EscapeRules[j].key)
    {
      RepRank(i);
      if j < 16 {
        KeyRank(j);
        assert EscapeRules[j].key[0] !in EscapeRules[i].rep;
      } else {
        assert EscapeRules[j].key[0] == 'f';
      }
      AbsentCharExcludes(EscapeRules[i].rep, EscapeRules[j].key, 0);
    }
  }

  /** Some character of `key` does not occur in `s`. */
  predicate LacksKeyChar(s: string, key: string)
  {
    exists k :: 0 <= k < |key| && key[k] !in s
  }

  lemma {:induction false} ApplyRulesIdle(s: string, rules: seq<Rule>)
    requires WellKeyed(rules)
    requires forall i :: 0 <= i < |rules| ==> LacksKeyChar(s, rules[i].key)
    ensures ApplyRules(s, rules) == s
    decreases |rules|
  {
    if rules != [] {
      assert LacksKeyChar(s, rules[0].key);
      var k :| 0 <= k < |rules[0].key| && rules[0].key[k] !in s;
      assert forall i :: 0 <= i < |s| ==> !RuleMatchAt(s, rules[0].key, i) by {
        forall i | 0 <= i < |s| ensures !StartsAt(s, rules[0].key, i) {
          StartsAtIndex(s, rules[0].key, i, k);
        }
      }
      GuardedSubIdle(s, rules[0].key, rules[0].rep);
      assert forall i :: 0 <= i < |rules| - 1 ==> rules[1..][i] == rules[i + 1];
      ApplyRulesIdle(s, rules[1..]);
    }
  }

  /** Text holding none of the sixteen special characters leaves the escape
      pass unchanged. */
  lemma EscapeWithoutKeys(s: string)
    requires forall k :: 0 <= k < |s| ==> !IsEscapeKey(s[k])
    ensures EscapePass(s) == s
  {
    forall i | 0 <= i < |EscapeRules|
      ensures LacksKeyChar(s, EscapeRules[i].key)
    {
      var k := if i == 16 then 4 else 0;
      var x := EscapeRules[i].key[k];
      assert IsEscapeKey(x) by {
        if i < 16 {
          KeyRank(i);
        }
      }
      assert x !in s;
    }
    ApplyRulesIdle(s, EscapeRules);
  }

  // ---------------------------------------------------------------------------
  // What the `_` entry does to placeholders
  // ---------------------------------------------------------------------------

  predicate Shields(x: char)
  {
    x == '\\' || x == '_'
  }

  /** Every `_` strictly inside the text has a backslash or an underscore
      next to it. */
  ghost predicate NoBareUnderscore(t: string)
  {
    forall q :: 0 < q < |t| - 1 && t[q] == '_' ==> Shields(t[q - 1]) || Shields(t[q + 1])
  }

  lemma BareJoin(a: string, b: string)
    requires NoBareUnderscore(a) && NoBareUnderscore(b)
    requires |a| > 1 && |b| > 0 && a[|a| - 1] == '_' ==> Shields(a[|a| - 2]) || Shields(b[0])
    requires |a| > 0 && |b| > 1 && b[0] == '_' ==> Shields(a[|a| - 1]) || Shields(b[1])
    ensures NoBareUnderscore(a + b)
  {
    var t := a + b;
    forall q | 0 < q < |t| - 1 && t[q] == '_'
      ensures Shields(t[q - 1]) || Shields(t[q + 1])
    {
      if q < |a| - 1 {
        assert t[q - 1] == a[q - 1] && t[q + 1] == a[q + 1];
      } else if q == |a| - 1 {
        assert t[q + 1] == b[0];
      } else if q == |a| {
        assert t[q - 1] == a[|a| - 1] && t[q + 1] == b[1];
      } else {
        assert t[q - 1] == b[q - 1 - |a|] && t[q + 1] == b[q + 1 - |a|];
      }
    }
  }

  /** After the `_` entry every `_` is shielded: an escaped one follows its
      backslash, and one the guard spared has `___` on one side, whose nearest
      `_` survives as `_` or as `\_`. */
  lemma {:induction false} UnderscoreRuleShieldsFrom(s: string, i: nat)
    requires i <= |s|
    ensures NoBareUnderscore(SubFrom(s, "_", "\\_", i))
    ensures i < |s| ==> (|SubFrom(s, "_", "\\_", i)| > 0
      && SubFrom(s, "_", "\\_", i)[0] == (if RuleMatchAt(s, "_", i) then '\\' else s[i]))
    ensures 1 <= i < |s| && |SubFrom(s, "_", "\\_", i)| > 1 && SubFrom(s, "_", "\\_", i)[0] == '_'
      ==> Shields(SubFrom(s, "_", "\\_", i)[1]) || Shields(s[i - 1])
    decreases |s| - i
  {
    if i < |s| {
      var o := SubFrom(s, "_", "\\_", i);
      var a := if RuleMatchAt(s, "_", i) then "\\_" else [s[i]];
      var b := SubFrom(s, "_", "\\_", i + 1);
      assert o == a + b;
      UnderscoreRuleShieldsFrom(s, i + 1);
      assert s[i..i + 1] == [s[i]];
      assert StartsAt(s, "_", i) <==> s[i] == '_';
      BareJoin(a, b);
      if |o| > 1 && o[0] == '_' {
        assert s[i] == '_' && Blocked(s, i, 1);
        if StartsAt(s, Guard, i - 3) {
          assert s[i - 1] == s[i - 3..i][2];
        } else {
          assert s[i + 1] == s[i + 1..i + 4][0];
        }
      }
    }
  }

  /** A later one-character entry whose key is neither `\` nor `_`, and whose
      replacement holds no `_`, keeps every `_` shielded. */
  lemma {:induction false} OtherRuleKeepsShieldFrom(s: string, c: char, rep: string, i: nat)
    requires NoBareUnderscore(s)
    requires !Shields(c) && '_' !in rep && |rep| > 0
    requires i <= |s|
    ensures NoBareUnderscore(SubFrom(s, [c], rep, i))
    ensures i < |s| ==> (|SubFrom(s, [c], rep, i)| > 0
      && SubFrom(s, [c], rep, i)[0] == (if RuleMatchAt(s, [c], i) then rep[0] else s[i]))
    ensures 1 <= i < |s| && |SubFrom(s, [c], rep, i)| > 1 && SubFrom(s, [c], rep, i)[0] == '_'
      ==> Shields(SubFrom(s, [c], rep, i)[1]) || Shields(s[i - 1])
    decreases |s| - i
  {
    if i < |s| {
      var o := SubFrom(s, [c], rep, i);
      var a := if RuleMatchAt(s, [c], i) then rep else [s[i]];
      var b := SubFrom(s, [c], rep, i + 1);
      assert o == a + b;
      OtherRuleKeepsShieldFrom(s, c, rep, i + 1);
      assert s[i..i + 1] == [s[i]];
      assert StartsAt(s, [c], i) <==> s[i] == c;
      assert rep[0] in rep;
      if i + 1 < |s| && Shields(s[i + 1]) {
        assert s[i + 1..i + 2] == [s[i + 1]];
        assert !RuleMatchAt(s, [c], i + 1);
      }
      BareJoin(a, b);
    }
  }

  lemma {:induction false} OtherRulesKeepShield(s: string, rules: seq<Rule>)
    requires NoBareUnderscore(s)
    requires forall i :: 0 <= i < |rules| ==>
      |rules[i].key| == 1 && !Shields(rules[i].key[0]) && '_' !in rules[i].rep && |rules[i].rep| > 0
    ensures NoBareUnderscore(ApplyRules(s, rules))
    decreases |rules|
  {
    if rules != [] {
      var r := rules[0];
      assert r.key == [r.key[0]];
      OtherRuleKeepsShieldFrom(s, r.key[0], r.rep, 0);
      OtherRulesKeepShield(GuardedSub(s, r.key, r.rep), rules[1..]);
    }
  }

  /** Where every `_` is shielded, `file_extension` cannot occur: its `_` has
      letters on both sides. */
  lemma FileExtensionRuleIdle(t: string)
    requires NoBareUnderscore(t)
    ensures GuardedSub(t, "file_extension", "file\\_extension") == t
  {
    forall i | 0 <= i < |t|
      ensures !RuleMatchAt(t, "file_extension", i)
    {
      StartsAtIndex(t, "file_extension", i, 3);
      StartsAtIndex(t, "file_extension", i, 4);
      StartsAtIndex(t, "file_extension", i, 5);
      if 0 < i + 4 < |t| - 1 && t[i + 4] == '_' {
        assert Shields(t[i + 3]) || Shields(t[i + 5]);
      }
    }
    GuardedSubIdle(t, "file_extension", "file\\_extension");
  }

  /** Running a list of entries is running a prefix and then the rest. */
  lemma ApplyRulesSplit(s: string, rules: seq<Rule>, n: nat)
    requires WellKeyed(rules) && n <= |rules|
    ensures WellKeyed(rules[..n]) && WellKeyed(rules[n..])
    ensures ApplyRules(s, rules) == ApplyRules(ApplyRules(s, rules[..n]), rules[n..])
  {
    assert rules == rules[..n] + rules[n..];
    ApplyRulesConcat(s, rules[..n], rules[n..]);
  }

  /** A list of one entry is one guarded substitution. */
  lemma ApplyOneRule(s: string, rules: seq<Rule>)
    requires |rules| == 1 && WellKeyed(rules)
    ensures ApplyRules(s, rules) == GuardedSub(s, rules[0].key, rules[0].rep)
  {
  }

  /** Entries 8 to 15 have a one-character key other than `\` and `_`, and
      insert a non-empty text without `_`. */
  lemma LaterRulesQualify(i: nat)
    requires 8 <= i < 16
    ensures |EscapeRules[i].key| == 1 && !Shields(EscapeRules[i].key[0])
    ensures '_' !in EscapeRules[i].rep && |EscapeRules[i].rep| > 0
  {
    KeyRank(i);
    if 9 <= i < 15 {
      TextRepsShape(i);
    }
  }

  /** Any list of seventeen entries shaped like the dict: whatever runs
      first, an `_` entry at index 7, eight entries after it that keep the
      shield, and `file_extension` last. */
  lemma {:induction false} ShapedPassShields(s: string, rules: seq<Rule>)
    requires |rules| == 17 && WellKeyed(rules)
    requires rules[7] == Rule("_", "\\_")
    requires forall i :: 8 <= i < 16 ==>
      |rules[i].key| == 1 && !Shields(rules[i].key[0]) && '_' !in rules[i].rep && |rules[i].rep| > 0
    requires rules[16] == Rule("file_extension", "file\\_extension")
    ensures NoBareUnderscore(ApplyRules(s, rules))
    ensures assert WellKeyed(rules[..16]); ApplyRules(s, rules) == ApplyRules(s, rules[..16])
  {
    ApplyRulesSplit(s, rules, 16);
    var first := rules[..16];
    var t16 := ApplyRules(s, first);
    ApplyRulesSplit(s, first, 8);
    var t8 := ApplyRules(s, first[..8]);
    ApplyRulesSplit(s, first[..8], 7);
    var t7 := ApplyRules(s, first[..8][..7]);
    ApplyOneRule(t7, first[..8][7..]);
    UnderscoreRuleShieldsFrom(t7, 0);
    assert NoBareUnderscore(t8);
    var later := first[8..];
    assert forall i :: 0 <= i < |later| ==> later[i] == rules[8 + i];
    OtherRulesKeepShield(t8, later);
    assert NoBareUnderscore(t16);
    FileExtensionRuleIdle(t16);
    ApplyOneRule(t16, rules[16..]);
  }

  /** The dict has the shape `ShapedPassShields` asks for. */
  lemma DictIsShaped()
    ensures |EscapeRules| == 17 && WellKeyed(EscapeRules)
    ensures EscapeRules[7] == Rule("_", "\\_")
    ensures forall i :: 8 <= i < 16 ==>
      |EscapeRules[i].key| == 1 && !Shields(EscapeRules[i].key[0]) && '_' !in EscapeRules[i].rep && |EscapeRules[i].rep| > 0
    ensures EscapeRules[16] == Rule("file_extension", "file\\_extension")
  {
    forall i | 8 <= i < 16
      ensures |EscapeRules[i].key| == 1 && !Shields(EscapeRules[i].key[0])
      ensures '_' !in EscapeRules[i].rep && |EscapeRules[i].rep| > 0
    {
      LaterRulesQualify(i);
    }
  }

  /** A placeholder holds a bare `_` (between its name and its index), so it
      cannot occur in text whose every `_` is shielded. */
  lemma ShieldedTextHasNoPlaceholder(t: string, kind: string, k: nat)
    requires NoBareUnderscore(t)
    requires |kind| > 0 && !Shields(kind[|kind| - 1])
    ensures !Contains(t, Placeholder(kind, k))
  {
    var ph := Placeholder(kind, k);
    var d := DecimalString(k);
    var m := 3 + |kind|;
    assert ph[m] == '_' && ph[m - 1] == kind[|kind| - 1] && ph[m + 1] == d[0];
    assert IsDigit(d[0]);
    forall i | 0 <= i <= |t| - |ph|
      ensures !StartsAt(t, ph, i)
    {
      StartsAtIndex(t, ph, i, m - 1);
      StartsAtIndex(t, ph, i, m);
      StartsAtIndex(t, ph, i, m + 1);
      if 0 < i + m < |t| - 1 && t[i + m] == '_' {
        assert Shields(t[i + m - 1]) || Shields(t[i + m + 1]);
      }
    }
  }
}

=== FILE: escape_outcome.dfy ===
/** What the escape pass as a whole does to the text it is given: every
    `_` comes out shielded, the `file_extension` entry never fires, and no
    placeholder token survives. */
module EscapeOutcome {
  import opened Strings
  import opened Scan
  import opened Escape

  /** The pass as a whole: after the first sixteen entries every `_` is
      shielded, and the last entry does not undo that. */
  lemma EscapePassShields(s: string)
    ensures NoBareUnderscore(EscapePass(s))
  {
    DictIsShaped();
    ShapedPassShields(s, EscapeRules);
  }

  /** The last entry, `file_extension`, never fires: the pass is the first
      sixteen entries alone, so its special case is dead. */
  lemma FileExtensionEntryIsDead(s: string)
    ensures assert WellKeyed(EscapeRules[..16]); EscapePass(s) == ApplyRules(s, EscapeRules[..16])
  {
    DictIsShaped();
    ShapedPassShields(s, EscapeRules);
  }

  /** Whatever the text, the escape pass leaves no `___INLINECODE_k___` and no
      `___CODEBLOCK_k___` intact: the guard only spares a `_` directly next to
      `___`, and the `_` between a placeholder's name and its index never is. */
  lemma EscapeBreaksPlaceholders(s: string, k: nat)
    ensures !Contains(EscapePass(s), Placeholder(InlineKind, k))
    ensures !Contains(EscapePass(s), Placeholder(BlockKind, k))
  {
    EscapePassShields(s);
    ShieldedHasNeither(EscapePass(s), k);
  }

  /** Neither placeholder kind survives in shielded text. */
  lemma ShieldedHasNeither(o: string, k: nat)
    requires NoBareUnderscore(o)
    ensures !Contains(o, Placeholder(InlineKind, k))
    ensures !Contains(o, Placeholder(BlockKind, k))
  {
    ShieldedTextHasNoPlaceholder(o, InlineKind, k);
    ShieldedTextHasNoPlaceholder(o, BlockKind, k);
  }
}

=== FILE: fixes.dfy ===
/** The first two stages of `preprocess_markdown`: the fixed literal
    replacements, then the rewrite of every `%name%` reference. */
module Fixes {
  import opened Strings
  import opened Scan

  /** The literal replacements, in the order the source makes them. Patterns
      and replacements are the string values, after Python's own literal
      escapes: `".cursor\\rules"` is the 13 characters `.cursor\rules`. */
  const LiteralCalls: seq<Literal> := [
    Literal(".cursor\\rules", ".cursor-rules"),
    Literal(".cursor\\\\rules", ".cursor-rules"),
    Literal("%libraryPath%\\library.json", "percentlibraryPathpercent-library.json"),
    Literal("%libraryPath%\\\\library.json", "percentlibraryPathpercent-library.json"),
    Literal("\\%libraryPath\\%\\library", "percentlibraryPathpercent-library")
  ]

  lemma LiteralPatternsHoldBackslash()
    ensures forall i :: 0 <= i < |LiteralCalls| ==> |LiteralCalls[i].pat| > 0 && '\\' in LiteralCalls[i].pat
  {
    assert LiteralCalls[0].pat[7] == '\\';
    assert LiteralCalls[1].pat[7] == '\\';
    assert LiteralCalls[2].pat[13] == '\\';
    assert LiteralCalls[3].pat[13] == '\\';
    assert LiteralCalls[4].pat[0] == '\\';
  }

  function LiteralFixes(s: string): string
  {
    LiteralPatternsHoldBackslash();
    ReplaceEach(s, LiteralCalls)
  }

  /** Every literal pattern contains a backslash, so text without one passes
      the literal fixes untouched. */
  lemma LiteralFixesNeedBackslash(s: string)
    requires '\\' !in s
    ensures LiteralFixes(s) == s
  {
    LiteralPatternsHoldBackslash();
    ReplaceEachMissing(s, LiteralCalls, '\\');
  }

  /** The character class `[A-Za-z0-9_]`. */
  predicate IsNameChar(c: char)
  {
    'A' <= c <= 'Z' || 'a' <= c <= 'z' || '0' <= c <= '9' || c == '_'
  }

  /** A text matched by `%([A-Za-z0-9_]+)%`. */
  predicate IsPercentVar(t: string)
  {
    |t| >= 3 && t[0] == '%' && t[|t| - 1] == '%'
    && forall k :: 0 < k < |t| - 1 ==> IsNameChar(t[k])
  }

  /** Length of the `%name%` match at the start of `s`, 0 when none. The
      greedy `+` takes the whole run of name characters; as `%` is not one,
      giving some back could never expose the closing `%`. */
  function PercentMatch(s: string): (n: nat)
    ensures n <= |s|
    ensures n > 0 ==> IsPercentVar(s[..n])
  {
    if |s| > 0 && s[0] == '%' then
      var w := Run(s[1..], IsNameChar);
      if w > 0 && w + 1 < |s| && s[w + 1] == '%' then
        assert forall k :: 0 < k < w + 1 ==> s[k] == s[1..][k - 1];
        w + 2
      else 0
    else 0
  }

  /** The matcher fails only where no prefix has the `%name%` shape. */
  lemma PercentMatchComplete(s: string)
    ensures PercentMatch(s) == 0 <==> forall e :: 0 <= e <= |s| ==> !IsPercentVar(s[..e])
  {
  }

  lemma PercentMatchBounded()
    ensures Bounded(PercentMatch)
  {
  }

  /** The leftmost, non-overlapping `%name%` matches of `s`. */
  function PercentTokens(s: string): seq<Piece>
  {
    PercentMatchBounded();
    Tokenize(s, PercentMatch)
  }

  /** The replacement template `percent\1percent`: group 1 is the name. */
  function RenderPercent(ps: seq<Piece>): string
  {
    if ps == [] then []
    else
      (match ps[0] case Plain(c) => [c] case Match(t) => "percent" + Strip(t) + "percent")
      + RenderPercent(ps[1..])
  }

  /** `re.compile(r'%([A-Za-z0-9_]+)%').sub(r'percent\1percent', s)`. */
  function PercentRewrite(s: string): string
  {
    RenderPercent(PercentTokens(s))
  }

  /** Every matched text is a `%name%` reference. */
  lemma PercentMatchesAreVars(s: string)
    ensures forall k :: 0 <= k < |Matches(PercentTokens(s))| ==> IsPercentVar(Matches(PercentTokens(s))[k])
  {
    PercentMatchBounded();
    TokenizeMatchesSatisfy(s, PercentMatch, IsPercentVar);
  }

  /** One reference: its two `%` signs are gone from its rewritten form. */
  lemma PercentVarCount(t: string)
    requires IsPercentVar(t)
    ensures Count(t, '%') == 2
    ensures Count("percent" + Strip(t) + "percent", '%') == 0
  {
    var name := Strip(t);
    assert '%' !in name by {
      forall k | 0 <= k < |name| ensures name[k] != '%' {
        assert name[k] == t[k + 1];
      }
    }
    CountAbsent(name, '%');
    CountAbsent("percent", '%');
    CountConcat("percent" + name, "percent", '%');
    CountConcat("percent", name, '%');
    assert t == "%" + name + "%";
    CountConcat("%" + name, "%", '%');
    CountConcat("%", name, '%');
  }

  lemma {:induction false} RenderPercentCount(ps: seq<Piece>)
    requires forall k :: 0 <= k < |Matches(ps)| ==> IsPercentVar(Matches(ps)[k])
    ensures Count(RenderPercent(ps), '%') + 2 * |Matches(ps)| == Count(Original(ps), '%')
    decreases |ps|
  {
    if ps != [] {
      var rest := ps[1..];
      if ps[0].Match? {
        var t := ps[0].text;
        assert Matches(ps) == [t] + Matches(rest);
        assert forall k :: 0 <= k < |Matches(rest)| ==> Matches(rest)[k] == Matches(ps)[k + 1];
        RenderPercentCount(rest);
        assert Matches(ps)[0] == t;
        PercentVarCount(t);
        CountConcat("percent" + Strip(t) + "percent", RenderPercent(rest), '%');
        CountConcat(t, Original(rest), '%');
      } else {
        assert Matches(ps) == Matches(rest);
        RenderPercentCount(rest);
        CountConcat([ps[0].c], RenderPercent(rest), '%');
        CountConcat([ps[0].c], Original(rest), '%');
      }
    }
  }

  /** Each rewritten reference loses exactly its two `%` signs; no other `%`
      is touched. */
  lemma PercentRewriteDropsTwoPerMatch(s: string)
    ensures Count(PercentRewrite(s), '%') + 2 * |Matches(PercentTokens(s))| == Count(s, '%')
  {
    PercentMatchesAreVars(s);
    RenderPercentCount(PercentTokens(s));
  }

  lemma {:induction false} RenderPercentWithoutMatches(ps: seq<Piece>)
    requires Matches(ps) == []
    ensures RenderPercent(ps) == Original(ps)
    decreases |ps|
  {
    if ps != [] {
      assert ps[0].Plain?;
      RenderPercentWithoutMatches(ps[1..]);
    }
  }

  /** The rewrite changes the text exactly when some position starts a
      `%name%` reference; otherwise it returns the text unchanged. */
  lemma PercentRewriteIdentity(s: string)
    ensures Matches(PercentTokens(s)) == [] <==> forall i :: 0 <= i < |s| ==> PercentMatch(s[i..]) == 0
    ensures Matches(PercentTokens(s)) == [] ==> PercentRewrite(s) == s
    ensures Matches(PercentTokens(s)) != [] ==> PercentRewrite(s) != s
  {
    PercentMatchBounded();
    TokenizeNoMatches(s, PercentMatch);
    if Matches(PercentTokens(s)) == [] {
      RenderPercentWithoutMatches(PercentTokens(s));
    } else {
      PercentRewriteDropsTwoPerMatch(s);
    }
  }

  /** Where no reference starts, the first character is copied and the
      rewrite goes on with the rest. */
  lemma PercentRewriteCopies(s: string)
    requires |s| > 0 && PercentMatch(s) == 0
    ensures PercentRewrite(s) == [s[0]] + PercentRewrite(s[1..])
  {
    var ps := PercentTokens(s);
    PercentMatchBounded();
    TokenizeHead(s, PercentMatch, ps);
    assert ps == [ps[0]] + ps[1..];
  }

  /** A reference at the start is rewritten to `percent`, its name and
      `percent`, and the rewrite goes on after its closing `%`. */
  lemma PercentRewriteMatches(s: string)
    requires PercentMatch(s) > 0
    ensures PercentRewrite(s)
         == "percent" + Strip(s[..PercentMatch(s)]) + "percent" + PercentRewrite(s[PercentMatch(s)..])
  {
    var ps := PercentTokens(s);
    PercentMatchBounded();
    TokenizeHead(s, PercentMatch, ps);
    assert ps == [ps[0]] + ps[1..];
  }

  /** Text without `%` is copied: no reference can start in it. */
  lemma {:induction false} PercentRewriteKeepsPlain(a: string, b: string)
    requires '%' !in a
    ensures PercentRewrite(a + b) == a + PercentRewrite(b)
    decreases |a|
  {
    if a != [] {
      var s := a + b;
      assert s[0] == a[0] && s[1..] == a[1..] + b;
      PercentRewriteCopies(s);
      PercentRewriteKeepsPlain(a[1..], b);
      assert a == [a[0]] + a[1..];
    } else {
      assert a + b == b;
    }
  }

  /** The greedy name run stops at the closing `%`: a reference written out
      is matched whole. */
  lemma PercentMatchOfVar(name: string, b: string)
    requires |name| > 0 && forall k :: 0 <= k < |name| ==> IsNameChar(name[k])
    ensures PercentMatch("%" + name + "%" + b) == |name| + 2
    ensures Strip(("%" + name + "%" + b)[..|name| + 2]) == name
    ensures ("%" + name + "%" + b)[|name| + 2..] == b
  {
    var s := "%" + name + "%" + b;
    assert s[1..] == name + "%" + b;
    RunStopsAt(s[1..], IsNameChar, |name|);
    assert s[..|name| + 2] == "%" + name + "%";
  }

  /** A reference written out at the start is rewritten to `percent`, its
      name and `percent`, and the rewrite goes on after it. */
  lemma PercentRewriteVar(name: string, b: string)
    requires |name| > 0 && forall k :: 0 <= k < |name| ==> IsNameChar(name[k])
    ensures PercentRewrite("%" + name + "%" + b) == "percent" + name + "percent" + PercentRewrite(b)
  {
    PercentMatchOfVar(name, b);
    PercentRewriteMatches("%" + name + "%" + b);
  }

  /** The rewrite at line 77: the text before the first reference is copied,
      the reference becomes `percent`, its name and `percent`, and the
      rewrite goes on after it. */
  lemma PercentRewriteStep(a: string, name: string, b: string)
    requires '%' !in a
    requires |name| > 0 && forall k :: 0 <= k < |name| ==> IsNameChar(name[k])
    ensures PercentRewrite(a + "%" + name + "%" + b) == a + "percent" + name + "percent" + PercentRewrite(b)
  {
    var r := "%" + name + "%" + b;
    Regroup(a, "%", name, "%", b);
    PercentRewriteKeepsPlain(a, r);
    PercentRewriteVar(name, b);
    Regroup(a, "percent", name, "percent", PercentRewrite(b));
  }

  /** Lines 67-77 together: text with neither `%` nor `\` is left alone. */
  lemma FixesNeedPercentOrBackslash(s: string)
    requires '%' !in s && '\\' !in s
    ensures PercentRewrite(LiteralFixes(s)) == s
  {
    LiteralFixesNeedBackslash(s);
    CountAbsent(s, '%');
    PercentRewriteDropsTwoPerMatch(s);
    PercentRewriteIdentity(s);
  }
}

=== FILE: preprocess.dfy ===
/** `preprocess_markdown` as a whole: the seven stages in the order the source
    runs them, and what the composition does to the protected spans. */
module Preprocess {
  import opened Strings
  import opened Scan
  import opened Fixes
  import opened Protect
  import opened Escape
  import opened EscapeOutcome
  import opened Restore

  /** What the function returns: the processed Markdown and the LaTeX header
      to put in front of the document. */
  datatype Output = Output(content: string, header: string)

  /** The fixed header: the listings, xcolor and verbatim packages, the
      listings settings, `\lstinline` redefined to `\text`, and the CJK font
      setup. */
  const LatexHeader: string :=
    "\\usepackage{listings}\n" +
    "\\usepackage{xcolor}\n" +
    "\\usepackage{verbatim}\n" +
    "\\lstset{\n" +
    "    breaklines=true,\n" +
    "    basicstyle=\\ttfamily\\small,\n" +
    "    commentstyle=\\color{green!50!black},\n" +
    "    keywordstyle=\\color{blue},\n" +
    "    stringstyle=\\color{red},\n" +
    "    numberstyle=\\ttfamily\\tiny\\color{gray},\n" +
    "    backgroundcolor=\\color{gray!10},\n" +
    "    frame=single,\n" +
    "    rulecolor=\\color{black!30},\n" +
    "    captionpos=b,\n" +
    "    tabsize=2,\n" +
    "}\n" +
    "\n" +
    "% 重新定义lstinline命令为text\n" +
    "\\let\\oldlstinline\\lstinline\n" +
    "\\renewcommand{\\lstinline}[1]{\\text{#1}}\n" +
    "\n" +
    "\\usepackage{fontspec}\n" +
    "\\setmainfont{SimSun}\n" +
    "\\setsansfont{SimHei}\n" +
    "\\setmonofont{Consolas}\n"

  /** The text the escape pass receives: the fixes applied, fenced blocks
      and then inline spans replaced by placeholders. */
  function MaskedText(content: string): string
  {
    var fenced := ExtractFenced(PercentRewrite(LiteralFixes(content)));
    ExtractInline(fenced.text).text
  }

  /** The seven stages in order. `word` is the character class `\w`, which
      never holds of a newline. */
  function PreprocessMarkdown(content: string, word: char -> bool): (r: Output)
    requires !word('\n')
    ensures r.header == LatexHeader
  {
    var fixed := PercentRewrite(LiteralFixes(content));
    var fenced := ExtractFenced(fixed);
    var inline := ExtractInline(fenced.text);
    var escaped := EscapePass(inline.text);
    var withInline := RestoreInline(escaped, inline.spans, 0);
    var withBlocks := RestoreFenced(withInline, fenced.spans, word, 0);
    Output(withBlocks, LatexHeader)
  }

  /** Neither restore loop ever finds its placeholders: the escape pass has
      broken every one of them, so the content returned is the escaped
      masked text, and the protected spans are lost. */
  lemma RestorationNeverFires(content: string, word: char -> bool)
    requires !word('\n')
    ensures PreprocessMarkdown(content, word).content == EscapePass(MaskedText(content))
    ensures forall k :: !Contains(PreprocessMarkdown(content, word).content, Placeholder(InlineKind, k))
    ensures forall k :: !Contains(PreprocessMarkdown(content, word).content, Placeholder(BlockKind, k))
  {
    var fenced := ExtractFenced(PercentRewrite(LiteralFixes(content)));
    var inline := ExtractInline(fenced.text);
    var escaped := EscapePass(inline.text);
    forall k: nat
      ensures !Contains(escaped, Placeholder(InlineKind, k))
      ensures !Contains(escaped, Placeholder(BlockKind, k))
    {
      EscapeBreaksPlaceholders(inline.text, k);
    }
    RestoreLoopsIdle(escaped, inline.spans, fenced.spans, word);
  }

  /** Text holding no placeholder passes both restore loops unchanged. */
  lemma RestoreLoopsIdle(escaped: string, spans: seq<string>, blocks: seq<string>, word: char -> bool)
    requires forall k :: !Contains(escaped, Placeholder(InlineKind, k))
    requires forall k :: !Contains(escaped, Placeholder(BlockKind, k))
    ensures RestoreFenced(RestoreInline(escaped, spans, 0), blocks, word, 0) == escaped
  {
  }

  /** The spans' contents never reach the output: two documents whose
      masked texts agree give the same content, whatever their code. */
  lemma OutputIgnoresSpans(a: string, b: string, word: char -> bool)
    requires !word('\n')
    requires MaskedText(a) == MaskedText(b)
    ensures PreprocessMarkdown(a, word).content == PreprocessMarkdown(b, word).content
  {
    RestorationNeverFires(a, word);
    RestorationNeverFires(b, word);
  }

  /** Empty input gives empty content. */
  lemma EmptyInput(word: char -> bool)
    requires !word('\n')
    ensures PreprocessMarkdown([], word).content == []
  {
    RestorationNeverFires([], word);
    EmptyMasked();
    EscapeWithoutKeys([]);
  }

  lemma EmptyMasked()
    ensures MaskedText([]) == []
  {
    LiteralFixesNeedBackslash([]);
    PercentRewriteIdentity([]);
    assert ExtractFenced([]).text == [];
    assert ExtractInline([]).text == [];
  }

  /** The literal fixes and the `%` rewrite leave a one-character span alone. */
  lemma SpanPassesFixes(c: char)
    requires c != '`' && c != '\\' && c != '%'
    ensures PercentRewrite(LiteralFixes(['`', c, '`'])) == ['`', c, '`']
  {
    var s := ['`', c, '`'];
    LiteralFixesNeedBackslash(s);
    PercentRewriteIdentity(s);
    assert forall i :: 0 <= i < |s| ==> PercentMatch(s[i..]) == 0;
  }

  /** It holds no fenced block. */
  lemma SpanHasNoBlock(c: char)
    ensures ExtractFenced(['`', c, '`']).text == ['`', c, '`']
  {
    assert !HasClosedFence(['`', c, '`']);
  }

  /** And it is one inline match, masked to the first placeholder. */
  lemma SpanIsMasked(c: char)
    requires c != '`'
    ensures ExtractInline(['`', c, '`']).text == Placeholder(InlineKind, 0)
  {
    var s := ['`', c, '`'];
    assert InlineMatch(s) == 3;
    ExtractInlineUnfolds(s);
    assert s[..3] == s && s[3..] == [];
    InlineMatchBounded();
    assert Tokenize(s[3..], InlineMatch) == [];
    assert InlineSpans(s) == [Match(s)];
    assert Masked([Match(s)], InlineKind, 0) == Placeholder(InlineKind, 0) + Masked([], InlineKind, 1);
  }

  /** A document that is one inline span of one character is masked to the
      first inline placeholder. */
  lemma OneCharSpanMasked(c: char)
    requires c != '`' && c != '\\' && c != '%'
    ensures MaskedText(['`', c, '`']) == Placeholder(InlineKind, 0)
  {
    SpanPassesFixes(c);
    SpanHasNoBlock(c);
    SpanIsMasked(c);
  }

  /** So the span's content is lost: `` `a` `` and `` `b` `` come out the
      same. */
  lemma InlineCodeIsLost(c: char, d: char, word: char -> bool)
    requires !word('\n')
    requires c != '`' && c != '\\' && c != '%'
    requires d != '`' && d != '\\' && d != '%'
    ensures PreprocessMarkdown(['`', c, '`'], word).content == PreprocessMarkdown(['`', d, '`'], word).content
  {
    OneCharSpanMasked(c);
    OneCharSpanMasked(d);
    OutputIgnoresSpans(['`', c, '`'], ['`', d, '`'], word);
  }
}

=== FILE: protect.dfy ===
/** Stages three and four: fenced blocks, then inline code spans, are cut out
    of the text and replaced by numbered placeholder tokens, the cut texts
    being kept in order for the restore stages. */
module Protect {
  import opened Strings
  import opened Scan

  /** What an extraction pass returns: the text with placeholders, and the
      protected spans, the `k`-th of which sits behind placeholder `k`. */
  datatype Extraction = Extraction(text: string, spans: seq<string>)

  const Fence: string := "```"

  /** The first index at or after `j` where a fence starts. */
  function FirstFenceFrom(s: string, j: nat): (r: Option<nat>)
    ensures r.Some? ==> j <= r.value && StartsAt(s, Fence, r.value)
    ensures r.Some? ==> forall p :: j <= p < r.value ==> !StartsAt(s, Fence, p)
    ensures r.None? ==> forall p :: j <= p ==> !StartsAt(s, Fence, p)
    decreases |s| - j
  {
    if j + 3 > |s| then None
    else if StartsAt(s, Fence, j) then Some(j)
    else FirstFenceFrom(s, j + 1)
  }

  /** A block as the fence pattern stores it: it opens with a fence and ends
      with the first fence that starts three or more characters in, so no
      fence begins strictly between the opening one and the closing one. */
  predicate IsFencedBlock(b: string)
  {
    && |b| >= 6
    && StartsAt(b, Fence, 0)
    && StartsAt(b, Fence, |b| - 3)
    && forall p :: 3 <= p < |b| - 3 ==> !StartsAt(b, Fence, p)
  }

  /** Length of the match of ```` ```[\s\S]*?``` ```` at the start of `s`, 0
      when none: the lazy body stops at the first closing fence. */
  function FenceMatch(s: string): (n: nat)
    ensures n <= |s|
    ensures n > 0 ==> IsFencedBlock(s[..n])
    ensures n == 0 <==> !(StartsAt(s, Fence, 0) && exists j :: 3 <= j && StartsAt(s, Fence, j))
  {
    if StartsAt(s, Fence, 0) then
      match FirstFenceFrom(s, 3)
      case None => 0
      case Some(j) =>
        ClosedFenceIsBlock(s, j);
        j + 3
    else 0
  }

  lemma ClosedFenceIsBlock(s: string, j: nat)
    requires StartsAt(s, Fence, 0) && FirstFenceFrom(s, 3) == Some(j)
    ensures IsFencedBlock(s[..j + 3])
  {
    var n := j + 3;
    StartsAtPrefix(s, Fence, n, 0);
    StartsAtPrefix(s, Fence, n, j);
    forall p | 3 <= p < n - 3
      ensures !StartsAt(s[..n], Fence, p)
    {
      StartsAtPrefix(s, Fence, n, p);
    }
  }

  lemma FenceMatchBounded()
    ensures Bounded(FenceMatch)
  {
  }

  function Fences(s: string): seq<Piece>
  {
    FenceMatchBounded();
    Tokenize(s, FenceMatch)
  }

  /** Some fence is followed, three or more characters later, by another. */
  predicate HasClosedFence(s: string)
  {
    exists i, j :: 0 <= i && i + 3 <= j <= |s| && StartsAt(s, Fence, i) && StartsAt(s, Fence, j)
  }

  /** The fence pattern matches at some position exactly when a fence is
      closed somewhere in the text. */
  lemma FenceMatchSomewhere(s: string)
    ensures (forall i :: 0 <= i < |s| ==> FenceMatch(s[i..]) == 0) <==> !HasClosedFence(s)
  {
    if HasClosedFence(s) {
      var i, j :| 0 <= i && i + 3 <= j <= |s| && StartsAt(s, Fence, i) && StartsAt(s, Fence, j);
      StartsAtSuffix(s, Fence, i, 0);
      StartsAtSuffix(s, Fence, i, j - i);
      assert FenceMatch(s[i..]) > 0;
    } else {
      forall i | 0 <= i < |s|
        ensures FenceMatch(s[i..]) == 0
      {
        if FenceMatch(s[i..]) > 0 {
          var j :| 3 <= j && StartsAt(s[i..], Fence, j);
          StartsAtSuffix(s, Fence, i, 0);
          StartsAtSuffix(s, Fence, i, j);
          assert false;
        }
      }
    }
  }

  /** `re.sub(r'```[\s\S]*?```', protect_code_blocks, s)` together with the
      list the callback fills. */
  function ExtractFenced(s: string): (e: Extraction)
    ensures forall k :: 0 <= k < |e.spans| ==> IsFencedBlock(e.spans[k])
    ensures e.spans == [] <==> !HasClosedFence(s)
    ensures e.spans == [] ==> e.text == s
  {
    var ps := Fences(s);
    FenceMatchBounded();
    TokenizeMatchesSatisfy(s, FenceMatch, IsFencedBlock);
    TokenizeNoMatches(s, FenceMatch);
    FenceMatchSomewhere(s);
    MaskedWithoutMatches(ps, BlockKind, 0);
    Extraction(Masked(ps, BlockKind, 0), Matches(ps))
  }

  /** A span as the inline pattern stores it: a backtick, one or more
      characters none of which is a backtick (newlines included), a
      backtick. */
  predicate IsInlineSpan(t: string)
  {
    && |t| >= 3
    && t[0] == '`'
    && t[|t| - 1] == '`'
    && forall k :: 0 < k < |t| - 1 ==> t[k] != '`'
  }

  predicate NotBacktick(c: char)
  {
    c != '`'
  }

  /** Length of the match of `` `[^`]+` `` at the start of `s`, 0 when none. */
  function InlineMatch(s: string): (n: nat)
    ensures n <= |s|
    ensures n > 0 ==> IsInlineSpan(s[..n])
  {
    if |s| > 0 && s[0] == '`' then
      var w := Run(s[1..], NotBacktick);
      if w > 0 && w + 1 < |s| then
        assert forall k :: 0 < k < w + 1 ==> s[k] == s[1..][k - 1];
        w + 2
      else 0
    else 0
  }

  /** The inline matcher fails only where no prefix has the span shape. */
  lemma InlineMatchComplete(s: string)
    ensures InlineMatch(s) == 0 <==> forall e :: 0 <= e <= |s| ==> !IsInlineSpan(s[..e])
  {
  }

  lemma InlineMatchBounded()
    ensures Bounded(InlineMatch)
  {
  }

  function InlineSpans(s: string): seq<Piece>
  {
    InlineMatchBounded();
    Tokenize(s, InlineMatch)
  }

  /** No inline span is stored exactly when no substring has the span shape. */
  lemma InlineMatchSomewhere(s: string)
    ensures (forall i :: 0 <= i < |s| ==> InlineMatch(s[i..]) == 0)
        <==> forall i, e :: 0 <= i <= e <= |s| ==> !IsInlineSpan(s[i..e])
  {
    if exists i, e :: 0 <= i <= e <= |s| && IsInlineSpan(s[i..e]) {
      var i, e :| 0 <= i <= e <= |s| && IsInlineSpan(s[i..e]);
      assert s[i..][..e - i] == s[i..e];
      InlineMatchComplete(s[i..]);
      assert InlineMatch(s[i..]) > 0;
    } else {
      forall i | 0 <= i < |s|
        ensures InlineMatch(s[i..]) == 0
      {
        InlineMatchComplete(s[i..]);
        forall e | 0 <= e <= |s[i..]|
          ensures !IsInlineSpan(s[i..][..e])
        {
          assert s[i..][..e] == s[i..i + e];
        }
      }
    }
  }

  /** `re.sub(r'`[^`]+`', protect_inline_code, s)` together with the list the
      callback fills. */
  function ExtractInline(s: string): (e: Extraction)
    ensures forall k :: 0 <= k < |e.spans| ==> IsInlineSpan(e.spans[k])
    ensures e.spans == [] <==> forall i, j :: 0 <= i <= j <= |s| ==> !IsInlineSpan(s[i..j])
    ensures e.spans == [] ==> e.text == s
  {
    var ps := InlineSpans(s);
    InlineMatchBounded();
    TokenizeMatchesSatisfy(s, InlineMatch, IsInlineSpan);
    TokenizeNoMatches(s, InlineMatch);
    InlineMatchSomewhere(s);
    MaskedWithoutMatches(ps, InlineKind, 0);
    Extraction(Masked(ps, InlineKind, 0), Matches(ps))
  }

  /** Text without a backtick has no inline span and is returned unchanged. */
  lemma InlineNeedsBacktick(s: string)
    requires '`' !in s
    ensures ExtractInline(s) == Extraction(s, [])
  {
  }

  /** The fenced extraction unfolded: the masked scan and its matches. */
  lemma ExtractFencedUnfolds(s: string)
    ensures Original(Fences(s)) == s
    ensures ExtractFenced(s) == Extraction(Masked(Fences(s), BlockKind, 0), Matches(Fences(s)))
  {
  }

  /** The inline extraction unfolded: the masked scan and its matches. */
  lemma ExtractInlineUnfolds(s: string)
    ensures Original(InlineSpans(s)) == s
    ensures ExtractInline(s) == Extraction(Masked(InlineSpans(s), InlineKind, 0), Matches(InlineSpans(s)))
  {
  }

  /** `re.sub` tries the fence pattern at every position it reaches. Where
      the scan stands at piece `k` (position `j`), either no block starts,
      and the character is copied, or the piece is the lazy match there,
      and it is the block stored under the number of blocks before it. */
  lemma FencesAreLeftmost(s: string, ps: seq<Piece>, k: nat, j: nat)
    requires ps == Fences(s) && k < |ps| && j == |Original(ps[..k])|
    ensures j < |s|
    ensures ExtractFenced(s).spans == Matches(ps)
    ensures ps[k].Plain? ==> FenceMatch(s[j..]) == 0 && ps[k].c == s[j]
    ensures ps[k].Match? ==>
              (FenceMatch(s[j..]) == |ps[k].text| > 0 && StartsAt(s, ps[k].text, j)
               && |Matches(ps[..k])| < |Matches(ps)| && Matches(ps)[|Matches(ps[..k])|] == ps[k].text)
  {
    ExtractFencedUnfolds(s);
    FenceMatchBounded();
    if ps[k].Match? {
      TokenizeStoresAt(s, FenceMatch, ps, k, j);
    } else {
      TokenizeAt(s, FenceMatch, ps, k, j);
    }
  }

  /** The same for the inline pattern. */
  lemma InlineSpansAreLeftmost(s: string, ps: seq<Piece>, k: nat, j: nat)
    requires ps == InlineSpans(s) && k < |ps| && j == |Original(ps[..k])|
    ensures j < |s|
    ensures ExtractInline(s).spans == Matches(ps)
    ensures ps[k].Plain? ==> InlineMatch(s[j..]) == 0 && ps[k].c == s[j]
    ensures ps[k].Match? ==>
              (InlineMatch(s[j..]) == |ps[k].text| > 0 && StartsAt(s, ps[k].text, j)
               && |Matches(ps[..k])| < |Matches(ps)| && Matches(ps)[|Matches(ps[..k])|] == ps[k].text)
  {
    ExtractInlineUnfolds(s);
    InlineMatchBounded();
    if ps[k].Match? {
      TokenizeStoresAt(s, InlineMatch, ps, k, j);
    } else {
      TokenizeAt(s, InlineMatch, ps, k, j);
    }
  }

  /** Splicing the stored blocks back in, each where its placeholder stands,
      gives the text before extraction, for text holding no `___` of its own. */
  lemma ExtractFencedRoundTrip(s: string)
    requires !Contains(s, Guard)
    ensures Splice(ExtractFenced(s).text, BlockKind, ExtractFenced(s).spans, 0) == s
  {
    var ps := Fences(s);
    ExtractFencedUnfolds(s);
    SpliceMasked(ps, BlockKind, Matches(ps), 0);
  }

  /** The same for the inline spans. */
  lemma ExtractInlineRoundTrip(s: string)
    requires !Contains(s, Guard)
    ensures Splice(ExtractInline(s).text, InlineKind, ExtractInline(s).spans, 0) == s
  {
    var ps := InlineSpans(s);
    ExtractInlineUnfolds(s);
    SpliceMasked(ps, InlineKind, Matches(ps), 0);
  }
}

=== FILE: restore.dfy ===
/** Stages six and seven: every placeholder token is looked up in the escaped
    text and replaced by the LaTeX for the span it stands for, inline spans
    first, then fenced blocks. Both loops use `str.replace`, once per stored
    span, in storage order. */
module Restore {
  import opened Strings
  import opened Scan
  import opened Protect
  import opened Escape

  // ---------------------------------------------------------------------------
  // Inline spans
  // ---------------------------------------------------------------------------

  /** The LaTeX for an inline span: its content, without the backticks,
      inside `\text{...}`. The source tests the content for `file_extension`
      and builds the same text on both branches. */
  function InlineLatex(code: string): string
  {
    var inner := Strip(code);
    if Contains(inner, "file_extension") then "\\text{" + inner + "}" else "\\text{" + inner + "}"
  }

  /** The `file_extension` test makes no difference: whatever the span, the
      LaTeX is its content inside `\text{...}`, with no further escaping. */
  lemma InlineLatexIgnoresFileExtension(code: string)
    ensures InlineLatex(code) == "\\text{" + Strip(code) + "}"
  {
  }

  /** The LaTeX keeps the whole content of the span: cutting `\text{` and
      `}` off and putting the backticks back gives the span again. */
  lemma InlineLatexKeepsContent(code: string)
    requires IsInlineSpan(code)
    ensures |InlineLatex(code)| == |code| + 5
    ensures "`" + InlineLatex(code)[6..|InlineLatex(code)| - 1] + "`" == code
  {
    var inner := Strip(code);
    var r := InlineLatex(code);
    assert r == "\\text{" + inner + "}";
    assert r[6..|r| - 1] == inner;
    assert code == code[..1] + inner + code[|code| - 1..];
  }

  /** `for i, code in enumerate(codes): content = content.replace(
      f"___INLINECODE_{i}___", latex)`, from index `i` on. */
  function RestoreInline(content: string, codes: seq<string>, i: nat): (r: string)
    ensures (forall k :: i <= k < |codes| ==> !Contains(content, Placeholder(InlineKind, k))) ==> r == content
    decreases |codes| - i
  {
    if i >= |codes| then content
    else
      ReplaceAllAbsent(content, Placeholder(InlineKind, i), InlineLatex(codes[i]));
      RestoreInline(ReplaceAll(content, Placeholder(InlineKind, i), InlineLatex(codes[i])), codes, i + 1)
  }

  /** One pass of the loop: when token `i` first occurs right after `a`, the
      text before it is kept, the token becomes the LaTeX of span `i`, and
      the rest of the text has its later copies of the token replaced too;
      the loop then goes on with span `i + 1`. */
  lemma RestoreInlineReplacesToken(a: string, b: string, codes: seq<string>, i: nat)
    requires i < |codes|
    requires forall j :: 0 <= j < |a| ==> !StartsAt(a + Placeholder(InlineKind, i) + b, Placeholder(InlineKind, i), j)
    ensures RestoreInline(a + Placeholder(InlineKind, i) + b, codes, i)
         == RestoreInline(a + InlineLatex(codes[i]) + ReplaceAll(b, Placeholder(InlineKind, i), InlineLatex(codes[i])), codes, i + 1)
    ensures !Contains(b, Placeholder(InlineKind, i)) ==>
              (RestoreInline(a + Placeholder(InlineKind, i) + b, codes, i)
               == RestoreInline(a + InlineLatex(codes[i]) + b, codes, i + 1))
  {
    ReplaceAllStep(a, Placeholder(InlineKind, i), b, InlineLatex(codes[i]));
    ReplaceAllAbsent(b, Placeholder(InlineKind, i), InlineLatex(codes[i]));
  }

  /** Why the loop is not an inverse of the masking, even on text without
      `___`: the closing `___` of one token, a span whose text is `kind_i`,
      and the opening `___` of the next token spell token `i`, which a later
      `str.replace` for `i` then takes for a real one. */
  lemma TokenFormsAcrossNeighbours(kind: string, i: nat, j: nat, k: nat)
    ensures StartsAt(Placeholder(kind, j) + kind + "_" + DecimalString(i) + Placeholder(kind, k),
                     Placeholder(kind, i), |Placeholder(kind, j)| - 3)
  {
    var x := "___" + kind + "_" + DecimalString(j);
    var y := kind + "_" + DecimalString(k) + "___";
    var t := Placeholder(kind, i);
    var s := Placeholder(kind, j) + kind + "_" + DecimalString(i) + Placeholder(kind, k);
    assert Placeholder(kind, j) == x + "___";
    assert Placeholder(kind, k) == "___" + y;
    assert s == x + t + y;
    assert s[|x|..|x| + |t|] == t;
  }

  // ---------------------------------------------------------------------------
  // Fenced blocks
  // ---------------------------------------------------------------------------

  /** The groups of `re.match(r'```(\w*)\n([\s\S]*?)```', block)`: the
      language tag (the greedy run of word characters after the opening
      fence, which must be followed by a newline) and the code up to the
      first fence after that newline. `word` is the character class `\w`. */
  function FenceParts(b: string, word: char -> bool): Option<(string, string)>
  {
    if !StartsAt(b, Fence, 0) then None
    else
      var n := Run(b[3..], word);
      if 3 + n < |b| && b[3 + n] == '\n' then
        match FirstFenceFrom(b, 4 + n)
        case None => None
        case Some(j) => Some((b[3..3 + n], b[4 + n..j]))
      else None
  }

  /** The text the match covers when the tag is `lang` and the code `code`. */
  function FenceSource(lang: string, code: string): string
  {
    Fence + lang + "\n" + code + Fence
  }

  /** The parts are what the block was written from: a block made of a tag of
      word characters, a newline, code in which no fence starts (not even one
      running into the closing fence), and the closing fence, gives back that
      tag and that code. */
  lemma FencePartsOfSource(lang: string, code: string, word: char -> bool)
    requires !word('\n')
    requires forall k :: 0 <= k < |lang| ==> word(lang[k])
    requires !Contains(code + "``", Fence)
    ensures FenceParts(FenceSource(lang, code), word) == Some((lang, code))
  {
    var b := FenceSource(lang, code);
    var n := |lang|;
    assert b[..3] == Fence;
    assert b[3..] == lang + "\n" + code + Fence;
    assert Run(b[3..], word) == n by {
      RunStopsAt(b[3..], word, n);
    }
    assert b[3 + n] == '\n';
    var tail := code + "``";
    forall p | 4 + n <= p < |b| - 3
      ensures !StartsAt(b, Fence, p)
    {
      assert b[p..p + 3] == tail[p - 4 - n..p - 1 - n];
      assert !StartsAt(tail, Fence, p - 4 - n);
    }
    assert StartsAt(b, Fence, |b| - 3) by {
      assert b[|b| - 3..] == Fence;
    }
    assert FirstFenceFrom(b, 4 + n) == Some(|b| - 3) by {
      FirstFenceIs(b, 4 + n, |b| - 3);
    }
    assert b[3..3 + n] == lang;
    assert b[4 + n..|b| - 3] == code;
  }

  /** Conversely, whatever the parts, the block starts with the text they
      were cut from, the tag is all word characters, and no fence starts in
      the code or runs into the closing fence. */
  lemma FencePartsShape(b: string, word: char -> bool, lang: string, code: string)
    requires FenceParts(b, word) == Some((lang, code))
    ensures forall k :: 0 <= k < |lang| ==> word(lang[k])
    ensures |FenceSource(lang, code)| <= |b| && b[..|FenceSource(lang, code)|] == FenceSource(lang, code)
    ensures !Contains(code + "``", Fence)
  {
    var n := Run(b[3..], word);
    var j := FirstFenceFrom(b, 4 + n).value;
    assert lang == b[3..3 + n] && code == b[4 + n..j];
    assert forall k :: 0 <= k < n ==> lang[k] == b[3..][k];
    FencePartsPrefix(b, n, j);
    FencePartsNoFence(b, n, j);
  }

  lemma FencePartsPrefix(b: string, n: nat, j: nat)
    requires StartsAt(b, Fence, 0) && 3 + n < |b| && b[3 + n] == '\n'
    requires 4 + n <= j && StartsAt(b, Fence, j)
    ensures b[..j + 3] == FenceSource(b[3..3 + n], b[4 + n..j])
  {
    assert b[..3] == Fence;
    assert b[j..j + 3] == Fence;
    assert b[..j + 3] == b[..3] + b[3..3 + n] + [b[3 + n]] + b[4 + n..j] + b[j..j + 3];
  }

  lemma FencePartsNoFence(b: string, n: nat, j: nat)
    requires 4 + n <= j && StartsAt(b, Fence, j)
    requires forall p :: 4 + n <= p < j ==> !StartsAt(b, Fence, p)
    ensures !Contains(b[4 + n..j] + "``", Fence)
  {
    var tail := b[4 + n..j] + "``";
    assert b[j..j + 2] == b[j..j + 3][..2] == "``";
    var pre := b[..j + 2];
    assert tail == pre[4 + n..];
    forall p | 0 <= p <= |tail| - 3
      ensures !StartsAt(tail, Fence, p)
    {
      StartsAtSuffix(pre, Fence, 4 + n, p);
      StartsAtPrefix(b, Fence, j + 2, 4 + n + p);
    }
  }

  lemma {:induction false} FirstFenceIs(s: string, j: nat, q: nat)
    requires j <= q && StartsAt(s, Fence, q)
    requires forall p :: j <= p < q ==> !StartsAt(s, Fence, p)
    ensures FirstFenceFrom(s, j) == Some(q)
    decreases q - j
  {
    if j < q {
      FirstFenceIs(s, j + 1, q);
    }
  }

  /** A `\text` command whose braces are escaped: what the brace calls make
      of `TextCommand(name)`. */
  function EscapedCommand(name: string): string
  {
    "\\text" + name + "\\{\\}"
  }

  /** The three characters the source escapes in code, and what each
      becomes after all three `str.replace` calls: the braces inserted for
      a backslash are escaped in turn by the brace calls. */
  function CharLatex(c: char): string
  {
    if c == '\\' then EscapedCommand("backslash")
    else if c == '{' then "\\{"
    else if c == '}' then "\\}"
    else [c]
  }

  /** Every character of `code` mapped through `CharLatex`. */
  function LatexChars(code: string): string
  {
    if code == [] then [] else CharLatex(code[0]) + LatexChars(code[1..])
  }

  /** The brace and backslash escapes, as the source makes them: one
      `str.replace` per character, in the dict's order. */
  function EscapeBraces(code: string): string
  {
    ReplaceAll(ReplaceAll(ReplaceAll(code, "\\", TextCommand("backslash")), "{", "\\{"), "}", "\\}")
  }

  lemma ReplaceCharSingle(x: char, c: char, rep: string)
    ensures ReplaceAll([x], [c], rep) == if x == c then rep else [x]
  {
    assert [x][..1] == [x];
    assert [x][1..] == [];
  }

  lemma ReplaceCharAbsent(s: string, c: char, rep: string)
    requires c !in s
    ensures ReplaceAll(s, [c], rep) == s
  {
    AbsentCharExcludes(s, [c], 0);
  }

  /** The brace calls escape the two braces that end a command. */
  lemma BraceEscapesAfter(w: string)
    requires '{' !in w && '}' !in w
    ensures ReplaceAll(ReplaceAll(w + "{}", "{", "\\{"), "}", "\\}") == w + "\\{\\}"
  {
    OpenBraceEscape(w);
    CloseBraceEscape(w);
  }

  lemma OpenBraceEscape(w: string)
    requires '{' !in w
    ensures ReplaceAll(w + "{}", "{", "\\{") == w + "\\{}"
  {
    assert w + "{}" == w + "{" + "}";
    ReplaceCharConcat(w + "{", "}", '{', "\\{");
    ReplaceCharConcat(w, "{", '{', "\\{");
    ReplaceCharAbsent(w, '{', "\\{");
    ReplaceCharSingle('{', '{', "\\{");
    ReplaceCharSingle('}', '{', "\\{");
    assert w + "\\{" + "}" == w + "\\{}";
  }

  lemma CloseBraceEscape(w: string)
    requires '}' !in w
    ensures ReplaceAll(w + "\\{}", "}", "\\}") == w + "\\{\\}"
  {
    var u := w + "\\{";
    assert '}' !in u;
    assert w + "\\{}" == u + "}";
    ReplaceCharConcat(u, "}", '}', "\\}");
    ReplaceCharAbsent(u, '}', "\\}");
    ReplaceCharSingle('}', '}', "\\}");
    assert u + "\\}" == w + "\\{\\}";
  }

  /** A command with a name free of braces and backslashes has only its two
      closing braces escaped by the brace calls. */
  lemma CommandBracesEscape(name: string)
    requires '{' !in name && '}' !in name && '\\' !in name
    ensures ReplaceAll(ReplaceAll(TextCommand(name), "{", "\\{"), "}", "\\}") == EscapedCommand(name)
  {
    var w := "\\text" + name;
    assert TextCommand(name) == w + "{}";
    assert '{' !in w && '}' !in w;
    BraceEscapesAfter(w);
  }

  lemma EscapeBracesChar(c: char)
    ensures EscapeBraces([c]) == CharLatex(c)
  {
    if c == '\\' {
      ReplaceCharSingle(c, '\\', TextCommand("backslash"));
      CommandBracesEscape("backslash");
    } else {
      ReplaceCharSingle(c, '\\', TextCommand("backslash"));
      ReplaceCharSingle(c, '{', "\\{");
      if c == '{' {
        ReplaceCharAbsent("\\{", '}', "\\}");
      } else {
        ReplaceCharSingle(c, '}', "\\}");
      }
    }
  }

  /** The three sequential `str.replace` calls escape each character on its
      own, as `CharLatex` says. */
  lemma {:induction false} EscapeBracesIsPerChar(code: string)
    ensures EscapeBraces(code) == LatexChars(code)
    decreases |code|
  {
    if code != [] {
      var c := code[0];
      var rest := code[1..];
      assert code == [c] + rest;
      EscapeBracesIsPerChar(rest);
      EscapeBracesChar(c);
      var r1 := ReplaceAll([c], "\\", TextCommand("backslash"));
      var s1 := ReplaceAll(rest, "\\", TextCommand("backslash"));
      ReplaceCharConcat([c], rest, '\\', TextCommand("backslash"));
      var r2 := ReplaceAll(r1, "{", "\\{");
      var s2 := ReplaceAll(s1, "{", "\\{");
      ReplaceCharConcat(r1, s1, '{', "\\{");
      ReplaceCharConcat(r2, s2, '}', "\\}");
    }
  }

  /** Reading the escapes back: `\textbackslash\{\}`, `\{` and `\}` become
      the character they stand for; anything else is copied. */
  function UnescapeCode(s: string): string
    decreases |s|
  {
    if s == [] then []
    else if StartsAt(s, EscapedCommand("backslash"), 0) then "\\" + UnescapeCode(s[|EscapedCommand("backslash")|..])
    else if StartsAt(s, "\\{", 0) then "{" + UnescapeCode(s[2..])
    else if StartsAt(s, "\\}", 0) then "}" + UnescapeCode(s[2..])
    else [s[0]] + UnescapeCode(s[1..])
  }

  lemma UnescapeCharLatex(c: char, t: string)
    ensures UnescapeCode(CharLatex(c) + t) == [c] + UnescapeCode(t)
  {
    var s := CharLatex(c) + t;
    var l := CharLatex(c);
    if c == '\\' {
      assert s[..|l|] == l;
      assert s[|l|..] == t;
    } else if c == '{' {
      assert s[..2] == l;
      assert s[2..] == t;
      assert !StartsAt(s, EscapedCommand("backslash"), 0) by {
        assert s[1] == '{';
      }
    } else if c == '}' {
      assert s[..2] == l;
      assert s[2..] == t;
      assert !StartsAt(s, EscapedCommand("backslash"), 0) by {
        assert s[1] == '}';
      }
    } else {
      assert s[0] == c && s[1..] == t;
      assert !StartsAt(s, EscapedCommand("backslash"), 0) && !StartsAt(s, "\\{", 0) && !StartsAt(s, "\\}", 0) by {
        assert s[0] != '\\';
      }
    }
  }

  /** The escaping loses nothing: reading it back gives the code again. */
  lemma EscapeBracesRoundTrip(code: string)
    ensures UnescapeCode(EscapeBraces(code)) == code
  {
    EscapeBracesIsPerChar(code);
    LatexCharsRoundTrip(code);
  }

  lemma {:induction false} LatexCharsRoundTrip(code: string)
    ensures UnescapeCode(LatexChars(code)) == code
    decreases |code|
  {
    if code != [] {
      LatexCharsRoundTrip(code[1..]);
      UnescapeCharLatex(code[0], LatexChars(code[1..]));
      assert code == [code[0]] + code[1..];
    }
  }

  /** What the source does to the code of a block: the two `.cursor\rules`
      fixes, then the brace and backslash escapes. */
  function CodeEscape(code: string): string
  {
    var c1 := ReplaceAll(code, ".cursor\\rules", ".cursor-rules");
    var c2 := ReplaceAll(c1, ".cursor\\\\rules", ".cursor-rules");
    EscapeBraces(c2)
  }

  /** `f'\\begin{{verbatim}}\n{code}\n\\end{{verbatim}}'`. */
  function VerbatimBlock(code: string): string
  {
    "\\begin{verbatim}\n" + CodeEscape(code) + "\n\\end{verbatim}"
  }

  /** Code without either `.cursor` path is only escaped, and the verbatim
      environment holds it in a form that reads back as the code. */
  lemma VerbatimBlockKeepsCode(code: string)
    requires !Contains(code, ".cursor\\rules") && !Contains(code, ".cursor\\\\rules")
    ensures CodeEscape(code) == EscapeBraces(code)
    ensures UnescapeCode(VerbatimBlock(code)[17..|VerbatimBlock(code)| - 15]) == code
  {
    ReplaceAllAbsent(code, ".cursor\\rules", ".cursor-rules");
    ReplaceAllAbsent(code, ".cursor\\\\rules", ".cursor-rules");
    var v := VerbatimBlock(code);
    assert v == "\\begin{verbatim}\n" + CodeEscape(code) + "\n\\end{verbatim}";
    assert v[17..|v| - 15] == CodeEscape(code);
    EscapeBracesRoundTrip(code);
  }

  /** One pass of the loop at lines 142-161: a block whose match fails
      leaves the text alone; otherwise placeholder `i` is replaced by the
      verbatim environment built from the block's code. The language tag
      takes no part. */
  function RestoreBlock(content: string, block: string, word: char -> bool, i: nat): (r: string)
    ensures !Contains(content, Placeholder(BlockKind, i)) ==> r == content
  {
    match FenceParts(block, word)
    case None => content
    case Some((_, code)) =>
      ReplaceAllAbsent(content, Placeholder(BlockKind, i), VerbatimBlock(code));
      ReplaceAll(content, Placeholder(BlockKind, i), VerbatimBlock(code))
  }

  /** `for i, block in enumerate(protected_blocks)`, from block `i` on. */
  function RestoreFenced(content: string, blocks: seq<string>, word: char -> bool, i: nat): (r: string)
    ensures (forall k :: i <= k < |blocks| ==> !Contains(content, Placeholder(BlockKind, k))) ==> r == content
    decreases |blocks| - i
  {
    if i >= |blocks| then content
    else RestoreFenced(RestoreBlock(content, blocks[i], word, i), blocks, word, i + 1)
  }

  /** `re.match` fails on a block that does not open with a fence or holds
      no newline. */
  lemma FencePartsNeedNewline(b: string, word: char -> bool)
    requires !StartsAt(b, Fence, 0) || '\n' !in b
    ensures FenceParts(b, word) == None
  {
    if StartsAt(b, Fence, 0) {
      var n := Run(b[3..], word);
      if 3 + n < |b| {
        assert b[3 + n] in b;
      }
    }
  }

  /** A block that does not open with a fence, or holds no newline, is
      skipped: its placeholder, wherever it stands, is left in the text and
      the loop goes on with the next block. Any other block the pattern
      rejects is skipped by the `None` branch of `RestoreBlock`. */
  lemma RestoreFencedSkipsRejected(content: string, blocks: seq<string>, word: char -> bool, i: nat)
    requires i < |blocks| && (!StartsAt(blocks[i], Fence, 0) || '\n' !in blocks[i])
    ensures RestoreFenced(content, blocks, word, i) == RestoreFenced(content, blocks, word, i + 1)
  {
    FencePartsNeedNewline(blocks[i], word);
  }

  /** One pass of the loop for a block written as tag `lang`, a newline and
      `code`: when token `i` first occurs right after `a`, it becomes the
      verbatim environment for `code`, the rest of the text has its later
      copies replaced too, and the loop goes on with block `i + 1`. */
  lemma RestoreFencedReplacesToken(a: string, b: string, blocks: seq<string>, word: char -> bool, i: nat, lang: string, code: string)
    requires !word('\n')
    requires forall k :: 0 <= k < |lang| ==> word(lang[k])
    requires !Contains(code + "``", Fence)
    requires i < |blocks| && blocks[i] == FenceSource(lang, code)
    requires forall j :: 0 <= j < |a| ==> !StartsAt(a + Placeholder(BlockKind, i) + b, Placeholder(BlockKind, i), j)
    ensures RestoreFenced(a + Placeholder(BlockKind, i) + b, blocks, word, i)
         == RestoreFenced(a + VerbatimBlock(code) + ReplaceAll(b, Placeholder(BlockKind, i), VerbatimBlock(code)), blocks, word, i + 1)
    ensures !Contains(b, Placeholder(BlockKind, i)) ==>
              (RestoreFenced(a + Placeholder(BlockKind, i) + b, blocks, word, i)
               == RestoreFenced(a + VerbatimBlock(code) + b, blocks, word, i + 1))
  {
    FencePartsOfSource(lang, code, word);
    ReplaceAllStep(a, Placeholder(BlockKind, i), b, VerbatimBlock(code));
    ReplaceAllAbsent(b, Placeholder(BlockKind, i), VerbatimBlock(code));
  }

  /** Two blocks that differ only in their tag make the same pass. */
  lemma RestoreBlockIgnoresTag(content: string, word: char -> bool, i: nat, lang1: string, lang2: string, code: string)
    requires !word('\n')
    requires forall p :: 0 <= p < |lang1| ==> word(lang1[p])
    requires forall p :: 0 <= p < |lang2| ==> word(lang2[p])
    requires !Contains(code + "``", Fence)
    ensures RestoreBlock(content, FenceSource(lang1, code), word, i)
         == RestoreBlock(content, FenceSource(lang2, code), word, i)
  {
    FencePartsOfSource(lang1, code, word);
    FencePartsOfSource(lang2, code, word);
  }

  /** Retagging block `k` changes no pass of the loop. */
  lemma RetaggedBlockIgnored(content: string, blocks: seq<string>, other: seq<string>, word: char -> bool, i: nat,
                             k: nat, lang1: string, lang2: string, code: string)
    requires !word('\n')
    requires forall p :: 0 <= p < |lang1| ==> word(lang1[p])
    requires forall p :: 0 <= p < |lang2| ==> word(lang2[p])
    requires !Contains(code + "``", Fence)
    requires i < |blocks| && k < |blocks| && blocks[k] == FenceSource(lang1, code)
    requires other == blocks[k := FenceSource(lang2, code)]
    ensures |other| == |blocks|
    ensures RestoreBlock(content, other[i], word, i) == RestoreBlock(content, blocks[i], word, i)
  {
    if i == k {
      RestoreBlockIgnoresTag(content, word, i, lang1, lang2, code);
    }
  }

  /** The language tag takes no part: changing the tag of any one stored
      block leaves the restored text as it was. */
  lemma {:induction false} RestoreFencedIgnoresTag(content: string, blocks: seq<string>, word: char -> bool, i: nat,
                                                    k: nat, lang1: string, lang2: string, code: string)
    requires !word('\n')
    requires forall p :: 0 <= p < |lang1| ==> word(lang1[p])
    requires forall p :: 0 <= p < |lang2| ==> word(lang2[p])
    requires !Contains(code + "``", Fence)
    requires k < |blocks| && blocks[k] == FenceSource(lang1, code)
    ensures RestoreFenced(content, blocks, word, i)
         == RestoreFenced(content, blocks[k := FenceSource(lang2, code)], word, i)
    decreases |blocks| - i
  {
    if i < |blocks| {
      var other := blocks[k := FenceSource(lang2, code)];
      RetaggedBlockIgnored(content, blocks, other, word, i, k, lang1, lang2, code);
      var next := RestoreBlock(content, blocks[i], word, i);
      RestoreFencedIgnoresTag(next, blocks, word, i + 1, k, lang1, lang2, code);
    }
  }
}

=== FILE: scan.dfy ===
/** Leftmost, non-overlapping scanning, as Python's `re.sub` performs it for a
    pattern with no lookbehind: at each position the pattern is tried; a match
    is consumed whole and scanning resumes after it, otherwise one character
    is copied and scanning moves on by one.

    A matcher is a function giving the length of the match that starts at the
    beginning of its argument, 0 when there is none. Scanning yields a list of
    pieces; the text `re.sub` returns is a rendering of that list, and the
    matched texts are the list's `Match` pieces in order. */
module Scan {
  import opened Strings

  datatype Piece = Plain(c: char) | Match(text: string)

  /** The text the pieces were cut from. */
  function Original(ps: seq<Piece>): string
  {
    if ps == [] then []
    else (match ps[0] case Plain(c) => [c] case Match(t) => t) + Original(ps[1..])
  }

  /** The matched texts, in order of appearance. */
  function Matches(ps: seq<Piece>): seq<string>
  {
    if ps == [] then []
    else (if ps[0].Match? then [ps[0].text] else []) + Matches(ps[1..])
  }

  /** A matcher never claims more than the text it is given. */
  ghost predicate Bounded(m: string -> nat)
  {
    forall t :: m(t) <= |t|
  }

  /** The leftmost non-overlapping scan of `s` with matcher `m`. Cutting loses
      nothing: the pieces put back together give `s`. */
  function Tokenize(s: string, m: string -> nat): (ps: seq<Piece>)
    requires Bounded(m)
    ensures Original(ps) == s
    decreases |s|
  {
    if s == [] then []
    else if m(s) > 0 then
      var n := m(s);
      var rest := Tokenize(s[n..], m);
      assert ([Match(s[..n])] + rest)[1..] == rest;
      assert s == s[..n] + s[n..];
      [Match(s[..n])] + rest
    else
      var rest := Tokenize(s[1..], m);
      assert ([Plain(s[0])] + rest)[1..] == rest;
      assert s == [s[0]] + s[1..];
      [Plain(s[0])] + rest
  }

  /** The first piece of a scan: a copied character where the matcher
      fails, the whole match otherwise; the scan goes on after it. */
  lemma TokenizeHead(s: string, m: string -> nat, ps: seq<Piece>)
    requires Bounded(m)
    requires ps == Tokenize(s, m) && s != []
    ensures |ps| > 0
    ensures m(s) == 0 ==> ps[0] == Plain(s[0]) && ps[1..] == Tokenize(s[1..], m)
    ensures m(s) > 0 ==> ps[0] == Match(s[..m(s)]) && ps[1..] == Tokenize(s[m(s)..], m)
  {
  }

  /** The scan has no memory: what follows the first pieces is the scan of
      the text after the text they cover. */
  lemma {:induction false} TokenizeSuffix(s: string, m: string -> nat, pre: seq<Piece>, post: seq<Piece>)
    requires Bounded(m)
    requires Tokenize(s, m) == pre + post
    ensures |Original(pre)| <= |s|
    ensures post == Tokenize(s[|Original(pre)|..], m)
    decreases |pre|, 1
  {
    if pre == [] {
      EmptySplit(pre, post);
      EmptySplit([], s);
    } else {
      TokenizeSuffixCons(s, m, pre, post);
    }
  }

  lemma {:induction false} TokenizeSuffixCons(s: string, m: string -> nat, pre: seq<Piece>, post: seq<Piece>)
    requires Bounded(m)
    requires Tokenize(s, m) == pre + post && pre != []
    ensures |Original(pre)| <= |s|
    ensures post == Tokenize(s[|Original(pre)|..], m)
    decreases |pre|, 0
  {
    var ps := Tokenize(s, m);
    TokenizeHead(s, m, ps);
    var n := if m(s) > 0 then m(s) else 1;
    ConsSplit(pre, post);
    var x := |Original(pre[1..])|;
    var l := |Original(pre)|;
    assert l == n + x;
    TokenizeSuffix(s[n..], m, pre[1..], post);
    DropDrop(s, n, x, l);
    ScanOfSame(s[n..][x..], s[l..], m, post);
  }

  lemma ScanOfSame(a: string, b: string, m: string -> nat, post: seq<Piece>)
    requires Bounded(m)
    requires a == b && post == Tokenize(a, m)
    ensures post == Tokenize(b, m)
  {
  }

  /** Where the scan stands when it reaches piece `k`: at the length of the
      text the earlier pieces cover. A copied character is one where the
      matcher fails; a match is the whole match the matcher finds there. So
      every position the scan reaches is tried, and the leftmost match is
      taken at each. */
  lemma TokenizeAt(s: string, m: string -> nat, ps: seq<Piece>, k: nat, j: nat)
    requires Bounded(m)
    requires ps == Tokenize(s, m) && k < |ps| && j == |Original(ps[..k])|
    ensures j < |s|
    ensures ps[k].Plain? ==> m(s[j..]) == 0 && ps[k].c == s[j]
    ensures ps[k].Match? ==> m(s[j..]) > 0 && ps[k].text == s[j..j + m(s[j..])]
  {
    var post := ps[k..];
    SplitAt(ps, k);
    TokenizeSuffix(s, m, ps[..k], post);
    var t := s[j..];
    assert t != [];
    TokenizeHead(t, m, post);
    assert post[0] == ps[k];
    PieceAt(s, m, j, ps[k]);
  }

  /** The first piece of the scan of `s[j..]`, read in `s`. */
  lemma PieceAt(s: string, m: string -> nat, j: nat, p: Piece)
    requires Bounded(m)
    requires j < |s|
    requires m(s[j..]) == 0 ==> p == Plain(s[j..][0])
    requires m(s[j..]) > 0 ==> p == Match(s[j..][..m(s[j..])])
    ensures p.Plain? ==> m(s[j..]) == 0 && p.c == s[j]
    ensures p.Match? ==> m(s[j..]) > 0 && p.text == s[j..j + m(s[j..])]
  {
    if m(s[j..]) > 0 {
      DropTake(s, j, m(s[j..]));
    }
  }

  /** A match piece is stored at the index that counts the matches before it. */
  lemma MatchIndex(ps: seq<Piece>, k: nat)
    requires k < |ps| && ps[k].Match?
    ensures |Matches(ps[..k])| < |Matches(ps)|
    ensures Matches(ps)[|Matches(ps[..k])|] == ps[k].text
  {
    assert ps == ps[..k] + [Match(ps[k].text)] + ps[k + 1..];
    PlaceholderNumbering(ps[..k], ps[k].text, ps[k + 1..], "", 0);
  }

  /** The leftmost match at each position the scan reaches is stored, under
      the number of matches stored before it. */
  lemma TokenizeStoresAt(s: string, m: string -> nat, ps: seq<Piece>, k: nat, j: nat)
    requires Bounded(m)
    requires ps == Tokenize(s, m) && k < |ps| && j == |Original(ps[..k])| && ps[k].Match?
    ensures j < |s| && m(s[j..]) == |ps[k].text| > 0 && StartsAt(s, ps[k].text, j)
    ensures |Matches(ps[..k])| < |Matches(ps)| && Matches(ps)[|Matches(ps[..k])|] == ps[k].text
  {
    TokenizeAt(s, m, ps, k, j);
    MatchIndex(ps, k);
    assert ps[k].text == s[j..j + |ps[k].text|];
  }

  /** Every matched text has whatever shape the matcher guarantees of the
      prefixes it accepts. */
  lemma {:induction false} TokenizeMatchesSatisfy(s: string, m: string -> nat, shape: string -> bool)
    requires Bounded(m)
    requires forall t :: m(t) > 0 ==> shape(t[..m(t)])
    ensures forall k :: 0 <= k < |Matches(Tokenize(s, m))| ==> shape(Matches(Tokenize(s, m))[k])
    decreases |s|
  {
    var ps := Tokenize(s, m);
    if s != [] {
      if m(s) > 0 {
        var n := m(s);
        TokenizeMatchesSatisfy(s[n..], m, shape);
        assert ps[1..] == Tokenize(s[n..], m);
        assert Matches(ps) == [s[..n]] + Matches(Tokenize(s[n..], m));
      } else {
        TokenizeMatchesSatisfy(s[1..], m, shape);
        assert ps[1..] == Tokenize(s[1..], m);
        assert Matches(ps) == Matches(Tokenize(s[1..], m));
      }
    }
  }

  /** The scan records no match exactly when the matcher fails at every
      position of `s`. */
  lemma {:induction false} TokenizeNoMatches(s: string, m: string -> nat)
    requires Bounded(m)
    ensures Matches(Tokenize(s, m)) == [] <==> forall i :: 0 <= i < |s| ==> m(s[i..]) == 0
    decreases |s|
  {
    var ps := Tokenize(s, m);
    if s != [] {
      if m(s) > 0 {
        assert ps[1..] == Tokenize(s[m(s)..], m);
        assert Matches(ps)[0] == s[..m(s)];
        assert s[0..] == s;
      } else {
        TokenizeNoMatches(s[1..], m);
        assert ps[1..] == Tokenize(s[1..], m);
        assert Matches(ps) == Matches(Tokenize(s[1..], m));
        forall i | 1 <= i < |s|
          ensures s[1..][i - 1..] == s[i..]
        {
        }
        assert s[0..] == s;
      }
    }
  }

  /** The run of underscores that opens and closes every placeholder token. */
  const Guard: string := "___"

  /** The placeholder token the source substitutes for the `k`-th protected
      span of a kind, as `f"___{kind}_{k}___"`. */
  function Placeholder(kind: string, k: nat): string
  {
    "___" + kind + "_" + DecimalString(k) + "___"
  }

  const InlineKind: string := "INLINECODE"
  const BlockKind: string := "CODEBLOCK"

  /** Tokens of one kind are unique: distinct indices give distinct tokens. */
  lemma PlaceholderInjective(kind: string, i: nat, j: nat)
    requires Placeholder(kind, i) == Placeholder(kind, j)
    ensures i == j
  {
    var a := Placeholder(kind, i);
    var b := Placeholder(kind, j);
    assert |DecimalString(i)| == |DecimalString(j)|;
    assert a[|kind| + 4..|a| - 3] == DecimalString(i);
    assert b[|kind| + 4..|b| - 3] == DecimalString(j);
    DecimalInjective(i, j);
  }

  /** The masked text: every match replaced by the next placeholder of `kind`,
      numbering from `k`; other characters copied. */
  function Masked(ps: seq<Piece>, kind: string, k: nat): string
  {
    if ps == [] then []
    else if ps[0].Match? then Placeholder(kind, k) + Masked(ps[1..], kind, k + 1)
    else [ps[0].c] + Masked(ps[1..], kind, k)
  }

  lemma {:induction false} MatchesConcat(a: seq<Piece>, b: seq<Piece>)
    ensures Matches(a + b) == Matches(a) + Matches(b)
    decreases |a|
  {
    if a == [] {
      assert a + b == b;
    } else {
      assert (a + b)[0] == a[0];
      assert (a + b)[1..] == a[1..] + b;
      MatchesConcat(a[1..], b);
    }
  }

  lemma {:induction false} MaskedConcat(a: seq<Piece>, b: seq<Piece>, kind: string, k: nat)
    ensures Masked(a + b, kind, k) == Masked(a, kind, k) + Masked(b, kind, k + |Matches(a)|)
    decreases |a|
  {
    if a == [] {
      assert a + b == b;
    } else {
      assert (a + b)[0] == a[0];
      assert (a + b)[1..] == a[1..] + b;
      if a[0].Match? {
        MaskedConcat(a[1..], b, kind, k + 1);
      } else {
        MaskedConcat(a[1..], b, kind, k);
      }
    }
  }

  /** Numbering: the span stored at index `n = |Matches(pre)|` is the one cut
      out at that point of the text, and the masked text carries placeholder
      `k + n` exactly there. */
  lemma PlaceholderNumbering(pre: seq<Piece>, t: string, post: seq<Piece>, kind: string, k: nat)
    ensures Matches(pre + [Match(t)] + post) == Matches(pre) + [t] + Matches(post)
    ensures Masked(pre + [Match(t)] + post, kind, k)
         == Masked(pre, kind, k) + Placeholder(kind, k + |Matches(pre)|)
            + Masked(post, kind, k + |Matches(pre)| + 1)
  {
    var n := |Matches(pre)|;
    MatchesConcat(pre + [Match(t)], post);
    MatchesConcat(pre, [Match(t)]);
    assert Matches([Match(t)]) == [t];
    MaskedConcat(pre + [Match(t)], post, kind, k);
    MaskedConcat(pre, [Match(t)], kind, k);
    assert Masked([Match(t)], kind, k + n) == Placeholder(kind, k + n);
  }

  /** With nothing matched, masking changes nothing. */
  lemma {:induction false} MaskedWithoutMatches(ps: seq<Piece>, kind: string, k: nat)
    ensures Matches(ps) == [] ==> Masked(ps, kind, k) == Original(ps)
    decreases |ps|
  {
    if ps != [] && Matches(ps) == [] {
      assert ps[0].Plain?;
      MaskedWithoutMatches(ps[1..], kind, k);
    }
  }

  /** Length of the longest prefix of `s` whose characters all satisfy `p`
      (a greedy `[...]*` run). */
  function Run(s: string, p: char -> bool): (n: nat)
    ensures n <= |s|
    ensures forall k :: 0 <= k < n ==> p(s[k])
    ensures n < |s| ==> !p(s[n])
    decreases |s|
  {
    if s == [] || !p(s[0]) then 0 else 1 + Run(s[1..], p)
  }

  /** The run is exactly as long as the prefix that satisfies `p`. */
  lemma {:induction false} RunStopsAt(s: string, p: char -> bool, n: nat)
    requires n < |s| && !p(s[n])
    requires forall k :: 0 <= k < n ==> p(s[k])
    ensures Run(s, p) == n
    decreases n
  {
    if n > 0 {
      RunStopsAt(s[1..], p, n - 1);
    }
  }

  /** Putting the spans back by position: scanning left to right, where the
      next expected token `k` starts it is replaced by `spans[k]`; every
      other character is copied. */
  function Splice(t: string, kind: string, spans: seq<string>, k: nat): string
    decreases |t|
  {
    if t == [] then []
    else if k < |spans| && StartsAt(t, Placeholder(kind, k), 0) then
      spans[k] + Splice(t[|Placeholder(kind, k)|..], kind, spans, k + 1)
    else [t[0]] + Splice(t[1..], kind, spans, k)
  }

  /** No token starts at a copied character of a masked text, as long as the
      text scanned held no `___`: the three underscores a token opens with
      cannot be completed across the copied character. */
  lemma PlainStartsNoToken(ps: seq<Piece>, kind: string, k: nat, j: nat)
    requires ps != [] && ps[0].Plain?
    requires !Contains(Original(ps), Guard)
    requires |kind| > 0 && kind[0] != '_'
    ensures !StartsAt(Masked(ps, kind, k), Placeholder(kind, j), 0)
  {
    var m := Masked(ps, kind, k);
    var p := Placeholder(kind, j);
    assert p[0] == '_' && p[1] == '_' && p[2] == '_' && p[3] == kind[0];
    StartsAtIndex(m, p, 0, 0);
    StartsAtIndex(m, p, 0, 1);
    StartsAtIndex(m, p, 0, 2);
    StartsAtIndex(m, p, 0, 3);
    var rest := ps[1..];
    assert m == [ps[0].c] + Masked(rest, kind, k);
    if rest == [] {
      assert |m| == 1;
    } else if rest[0].Match? {
      assert Masked(rest, kind, k) == Placeholder(kind, k) + Masked(rest[1..], kind, k + 1);
      assert m[3] == '_';
    } else {
      var rest2 := rest[1..];
      assert Masked(rest, kind, k) == [rest[0].c] + Masked(rest2, kind, k);
      if rest2 == [] {
        assert |m| == 2;
      } else if rest2[0].Match? {
        assert Masked(rest2, kind, k) == Placeholder(kind, k) + Masked(rest2[1..], kind, k + 1);
        assert m[3] == '_';
      } else {
        var o := Original(ps);
        assert o == [ps[0].c] + ([rest[0].c] + ([rest2[0].c] + Original(rest2[1..])));
        assert m[..3] == [ps[0].c, rest[0].c, rest2[0].c] == o[..3];
        assert StartsAt(m, p, 0) ==> StartsAt(o, Guard, 0);
      }
    }
  }

  /** Splicing the stored matches back into the masked text gives the text
      scanned, provided that text held no `___` of its own. */
  lemma {:induction false} SpliceMasked(ps: seq<Piece>, kind: string, spans: seq<string>, k: nat)
    requires |kind| > 0 && kind[0] != '_'
    requires !Contains(Original(ps), Guard)
    requires k + |Matches(ps)| <= |spans|
    requires forall j :: 0 <= j < |Matches(ps)| ==> spans[k + j] == Matches(ps)[j]
    ensures Splice(Masked(ps, kind, k), kind, spans, k) == Original(ps)
    decreases |ps|
  {
    if ps != [] {
      var rest := ps[1..];
      var m := Masked(ps, kind, k);
      if ps[0].Match? {
        var t := ps[0].text;
        var p := Placeholder(kind, k);
        assert Matches(ps) == [t] + Matches(rest);
        assert Matches(ps)[0] == t;
        assert spans[k + 0] == Matches(ps)[0];
        assert m == p + Masked(rest, kind, k + 1);
        assert m[..|p|] == p && m[|p|..] == Masked(rest, kind, k + 1);
        assert Original(ps) == t + Original(rest);
        assert Original(ps)[|t|..] == Original(rest);
        ContainsSuffix(Original(ps), Guard, |t|);
        assert forall j :: 0 <= j < |Matches(rest)| ==> Matches(rest)[j] == Matches(ps)[j + 1];
        SpliceMasked(rest, kind, spans, k + 1);
      } else {
        assert Matches(ps) == Matches(rest);
        assert m == [ps[0].c] + Masked(rest, kind, k);
        assert m[1..] == Masked(rest, kind, k);
        if k < |spans| {
          PlainStartsNoToken(ps, kind, k, k);
        }
        assert Original(ps) == [ps[0].c] + Original(rest);
        assert Original(ps)[1..] == Original(rest);
        ContainsSuffix(Original(ps), Guard, 1);
        SpliceMasked(rest, kind, spans, k);
      }
    }
  }
}

=== FILE: strings.dfy ===
/** Basic string vocabulary shared by every stage of the preprocessor:
    substring occurrence, Python's `str.replace`, character counting and
    the decimal rendering used inside placeholder tokens. */
module Strings {

  datatype Option<+T> = None | Some(value: T)

  /** True when `p` occurs in `s` starting at index `i`. */
  predicate StartsAt(s: string, p: string, i: int)
  {
    0 <= i && i + |p| <= |s| && s[i..i + |p|] == p
  }

  /** An occurrence fixes the characters it covers. */
  lemma StartsAtIndex(s: string, p: string, i: int, k: int)
    ensures StartsAt(s, p, i) && 0 <= k < |p| ==> s[i + k] == p[k]
  {
    if StartsAt(s, p, i) && 0 <= k < |p| {
      assert s[i..i + |p|][k] == p[k];
    }
  }

  /** True when `p` occurs somewhere in `s`. */
  predicate Contains(s: string, p: string)
  {
    exists i :: 0 <= i <= |s| - |p| && StartsAt(s, p, i)
  }

  /** An occurrence in `s[1..]` is an occurrence in `s`, one index later. */
  lemma ContainsTail(s: string, p: string)
    requires |s| > 0
    ensures Contains(s[1..], p) ==> Contains(s, p)
  {
    if Contains(s[1..], p) {
      var i :| 0 <= i <= |s[1..]| - |p| && StartsAt(s[1..], p, i);
      assert s[i + 1..i + 1 + |p|] == s[1..][i..i + |p|];
      assert StartsAt(s, p, i + 1);
    }
  }

  /** An occurrence in a suffix is an occurrence in the whole string. */
  lemma ContainsSuffix(s: string, p: string, n: nat)
    requires n <= |s|
    ensures Contains(s[n..], p) ==> Contains(s, p)
  {
    if Contains(s[n..], p) {
      var i :| 0 <= i <= |s[n..]| - |p| && StartsAt(s[n..], p, i);
      assert s[i + n..i + n + |p|] == s[n..][i..i + |p|];
      assert StartsAt(s, p, i + n);
    }
  }

  /** Occurrences inside a suffix are occurrences in the whole text, shifted. */
  lemma StartsAtSuffix(s: string, p: string, n: nat, i: int)
    requires n <= |s|
    ensures StartsAt(s[n..], p, i) <==> i >= 0 && StartsAt(s, p, n + i)
  {
    if i >= 0 && n + i + |p| <= |s| {
      assert s[n..][i..i + |p|] == s[n + i..n + i + |p|];
    }
  }

  /** Occurrences that end within a prefix are occurrences in the whole text. */
  lemma StartsAtPrefix(s: string, p: string, n: nat, i: int)
    requires n <= |s| && i + |p| <= n
    ensures StartsAt(s[..n], p, i) <==> StartsAt(s, p, i)
  {
    if 0 <= i {
      assert s[..n][i..i + |p|] == s[i..i + |p|];
    }
  }

  /** A pattern holding a character that `s` lacks does not occur in `s`. */
  lemma AbsentCharExcludes(s: string, p: string, k: nat)
    requires k < |p| && p[k] !in s
    ensures !Contains(s, p)
  {
  }

  /** Sequence identities used by the proofs below. */
  lemma SplitAt<T>(xs: seq<T>, k: nat)
    requires k <= |xs|
    ensures xs == xs[..k] + xs[k..]
  {
  }

  lemma EmptySplit<T>(a: seq<T>, b: seq<T>)
    requires a == []
    ensures a + b == b && b[0..] == b
  {
  }

  lemma ConsSplit<T>(a: seq<T>, b: seq<T>)
    requires a != []
    ensures (a + b)[0] == a[0] && (a + b)[1..] == a[1..] + b
  {
  }

  lemma DropDrop<T>(xs: seq<T>, n: nat, a: nat, l: nat)
    requires l == n + a <= |xs|
    ensures xs[n..][a..] == xs[l..]
  {
  }

  lemma DropTake<T>(xs: seq<T>, j: nat, e: nat)
    requires j + e <= |xs|
    ensures xs[j..][..e] == xs[j..j + e]
  {
  }

  lemma Regroup<T>(a: seq<T>, p: seq<T>, n: seq<T>, q: seq<T>, b: seq<T>)
    ensures a + p + n + q + b == a + (p + n + q + b)
  { }

  /** Python's `s.replace(pat, rep)` for a non-empty pattern: scanning left to
      right, every occurrence that does not overlap an earlier replaced one is
      replaced. */
  function ReplaceAll(s: string, pat: string, rep: string): string
    requires |pat| > 0
    decreases |s|
  {
    if |s| < |pat| then s
    else if s[..|pat|] == pat then rep + ReplaceAll(s[|pat|..], pat, rep)
    else [s[0]] + ReplaceAll(s[1..], pat, rep)
  }

  /** Text without the pattern is returned unchanged. */
  lemma {:induction false} ReplaceAllAbsent(s: string, pat: string, rep: string)
    requires |pat| > 0
    ensures !Contains(s, pat) ==> ReplaceAll(s, pat, rep) == s
    decreases |s|
  {
    if |s| >= |pat| && !Contains(s, pat) {
      assert s[..|pat|] != pat by {
        assert !StartsAt(s, pat, 0);
      }
      ContainsTail(s, pat);
      ReplaceAllAbsent(s[1..], pat, rep);
      assert s == [s[0]] + s[1..];
    }
  }

  /** With a one-character pattern, replacing distributes over concatenation. */
  lemma {:induction false} ReplaceCharConcat(a: string, b: string, c: char, rep: string)
    ensures ReplaceAll(a + b, [c], rep) == ReplaceAll(a, [c], rep) + ReplaceAll(b, [c], rep)
    decreases |a|
  {
    if a != [] {
      assert (a + b)[..1] == a[..1];
      assert (a + b)[1..] == a[1..] + b;
      ReplaceCharConcat(a[1..], b, c, rep);
      if a[..1] == [c] {
        assert ReplaceAll(a, [c], rep) == rep + ReplaceAll(a[1..], [c], rep);
        assert ReplaceAll(a + b, [c], rep) == rep + ReplaceAll(a[1..] + b, [c], rep);
      } else {
        assert ReplaceAll(a, [c], rep) == [a[0]] + ReplaceAll(a[1..], [c], rep);
        assert ReplaceAll(a + b, [c], rep) == [a[0]] + ReplaceAll(a[1..] + b, [c], rep);
      }
    } else {
      assert a + b == b;
    }
  }

  /** The replacing half: when the first occurrence of `pat` starts right
      after `a`, the text before it is kept, the occurrence becomes `rep`,
      and scanning goes on after it. */
  lemma ReplaceAllStep(a: string, pat: string, b: string, rep: string)
    requires |pat| > 0
    requires forall i :: 0 <= i < |a| ==> !StartsAt(a + pat + b, pat, i)
    ensures ReplaceAll(a + pat + b, pat, rep) == a + rep + ReplaceAll(b, pat, rep)
  {
    var s := a + pat + b;
    assert s[..|a|] == a;
    assert s[|a|..|a| + |pat|] == pat;
    assert s[|a| + |pat|..] == b;
    FirstOccurrence(s, pat, |a|);
    ReplaceAllFrom(s, pat, rep, |a|);
  }

  /** The first occurrence of `pat` in `s` starts at `n`. */
  predicate FirstAt(s: string, pat: string, n: nat)
    decreases n
  {
    if n == 0 then StartsAt(s, pat, 0)
    else |s| > 0 && !StartsAt(s, pat, 0) && FirstAt(s[1..], pat, n - 1)
  }

  lemma {:induction false} FirstOccurrence(s: string, pat: string, n: nat)
    requires StartsAt(s, pat, n)
    requires forall i :: 0 <= i < n ==> !StartsAt(s, pat, i)
    ensures FirstAt(s, pat, n)
    decreases n
  {
    if n > 0 {
      assert !StartsAt(s, pat, 0);
      StartsAtSuffix(s, pat, 1, n - 1);
      forall i | 0 <= i < n - 1
        ensures !StartsAt(s[1..], pat, i)
      {
        StartsAtSuffix(s, pat, 1, i);
      }
      FirstOccurrence(s[1..], pat, n - 1);
    }
  }

  lemma {:induction false} ReplaceAllFrom(s: string, pat: string, rep: string, n: nat)
    requires |pat| > 0 && FirstAt(s, pat, n)
    ensures n + |pat| <= |s|
    ensures ReplaceAll(s, pat, rep) == s[..n] + rep + ReplaceAll(s[n + |pat|..], pat, rep)
    decreases n, 1
  {
    if n == 0 {
      ReplaceAllHead(s, pat, rep);
    } else {
      ReplaceAllLater(s, pat, rep, n);
    }
  }

  lemma {:induction false} ReplaceAllLater(s: string, pat: string, rep: string, n: nat)
    requires |pat| > 0 && n > 0 && |s| > 0 && !StartsAt(s, pat, 0) && FirstAt(s[1..], pat, n - 1)
    ensures n + |pat| <= |s|
    ensures ReplaceAll(s, pat, rep) == s[..n] + rep + ReplaceAll(s[n + |pat|..], pat, rep)
    decreases n, 0
  {
    var t := s[1..];
    var m := n - 1;
    ReplaceAllFrom(t, pat, rep, m);
    ReplaceAllCons(s, t, pat, rep, m, n);
  }

  /** The step of `ReplaceAllFrom`: a first character that starts no
      occurrence is kept in front of the tail's replacement. */
  lemma ReplaceAllCons(s: string, t: string, pat: string, rep: string, m: nat, n: nat)
    requires |pat| > 0 && n == m + 1 && m + |pat| <= |t| && !StartsAt(s, pat, 0) && |s| > 0 && t == s[1..]
    requires ReplaceAll(t, pat, rep) == t[..m] + rep + ReplaceAll(t[m + |pat|..], pat, rep)
    ensures ReplaceAll(s, pat, rep) == s[..n] + rep + ReplaceAll(s[n + |pat|..], pat, rep)
  {
    ReplaceAllSkip(s, pat, rep);
    assert t[m + |pat|..] == s[n + |pat|..];
    ConsPrefix(s, n, rep, ReplaceAll(s[n + |pat|..], pat, rep));
  }

  /** A text that starts with the pattern has it replaced first. */
  lemma ReplaceAllHead(s: string, pat: string, rep: string)
    requires |pat| > 0 && StartsAt(s, pat, 0)
    ensures ReplaceAll(s, pat, rep) == s[..0] + rep + ReplaceAll(s[|pat|..], pat, rep)
  {
    assert s[..|pat|] == pat;
    assert s[..0] + rep == rep;
  }

  /** A text that does not start with the pattern keeps its first character. */
  lemma ReplaceAllSkip(s: string, pat: string, rep: string)
    requires |pat| > 0 && |s| > 0 && !StartsAt(s, pat, 0)
    ensures ReplaceAll(s, pat, rep) == [s[0]] + ReplaceAll(s[1..], pat, rep)
  {
  }

  lemma ConsPrefix(s: string, n: nat, rep: string, x: string)
    requires 0 < n <= |s|
    ensures [s[0]] + (s[1..][..n - 1] + rep + x) == s[..n] + rep + x
  {
    assert s[..n] == [s[0]] + s[1..][..n - 1];
  }

  /** One `str.replace` call of a fixed sequence of them. */
  datatype Literal = Literal(pat: string, rep: string)

  /** The calls `s = s.replace(pat, rep)` made one after the other, each on the
      previous one's result. */
  function ReplaceEach(s: string, calls: seq<Literal>): string
    requires forall i :: 0 <= i < |calls| ==> |calls[i].pat| > 0
    decreases |calls|
  {
    if calls == [] then s else ReplaceEach(ReplaceAll(s, calls[0].pat, calls[0].rep), calls[1..])
  }

  /** When every pattern holds a character the text lacks, and no call can
      introduce that character, the whole sequence of calls is the identity. */
  lemma {:induction false} ReplaceEachMissing(s: string, calls: seq<Literal>, c: char)
    requires forall i :: 0 <= i < |calls| ==> |calls[i].pat| > 0 && c in calls[i].pat
    requires c !in s
    ensures ReplaceEach(s, calls) == s
    decreases |calls|
  {
    if calls != [] {
      var k :| 0 <= k < |calls[0].pat| && calls[0].pat[k] == c;
      AbsentCharExcludes(s, calls[0].pat, k);
      ReplaceAllAbsent(s, calls[0].pat, calls[0].rep);
      ReplaceEachMissing(s, calls[1..], c);
    }
  }

  /** Number of occurrences of character `c` in `s`. */
  function Count(s: string, c: char): nat
  {
    if s == [] then 0 else (if s[0] == c then 1 else 0) + Count(s[1..], c)
  }

  lemma {:induction false} CountConcat(a: string, b: string, c: char)
    ensures Count(a + b, c) == Count(a, c) + Count(b, c)
    decreases |a|
  {
    if a != [] {
      assert (a + b)[0] == a[0];
      assert (a + b)[1..] == a[1..] + b;
      CountConcat(a[1..], b, c);
    } else {
      assert a + b == b;
    }
  }

  lemma {:induction false} CountAbsent(s: string, c: char)
    requires c !in s
    ensures Count(s, c) == 0
    decreases |s|
  {
    if s != [] {
      assert c !in s[1..];
      CountAbsent(s[1..], c);
    }
  }

  /** The concatenation of a sequence of strings (Python's `''.join`). */
  function Flatten(parts: seq<string>): string
  {
    if parts == [] then [] else parts[0] + Flatten(parts[1..])
  }

  /** Python's `t[1:-1]`: the string without its first and last character,
      empty when `t` has fewer than three characters. */
  function Strip(t: string): (r: string)
    ensures |t| >= 2 ==> t == t[..1] + r + t[|t| - 1..]
    ensures |t| < 2 ==> r == []
  {
    if |t| >= 2 then t[1..|t| - 1] else []
  }

  predicate IsDigit(c: char)
  {
    '0' <= c <= '9'
  }

  function DigitChar(d: nat): (c: char)
    requires d < 10
    ensures IsDigit(c) && c as int - '0' as int == d
  {
    (d + '0' as int) as char
  }

  /** The decimal rendering of `n`, as Python's `f"{n}"`. */
  function DecimalString(n: nat): (r: string)
    ensures |r| > 0
    ensures forall k :: 0 <= k < |r| ==> IsDigit(r[k])
    decreases n
  {
    if n < 10 then [DigitChar(n)] else DecimalString(n / 10) + [DigitChar(n % 10)]
  }

  /** The value of a string of decimal digits, read most significant first. */
  function DecimalValue(s: string): nat
    requires forall k :: 0 <= k < |s| ==> IsDigit(s[k])
    decreases |s|
  {
    if s == [] then 0
    else
      assert IsDigit(s[|s| - 1]);
      10 * DecimalValue(s[..|s| - 1]) + (s[|s| - 1] as int - '0' as int)
  }

  /** Reading back a decimal rendering gives the number again. */
  lemma {:induction false} DecimalRoundTrip(n: nat)
    ensures DecimalValue(DecimalString(n)) == n
    decreases n
  {
    var r := DecimalString(n);
    if n >= 10 {
      DecimalRoundTrip(n / 10);
      assert r[..|r| - 1] == DecimalString(n / 10);
    }
  }

  /** Distinct numbers have distinct decimal renderings. */
  lemma DecimalInjective(i: nat, j: nat)
    requires DecimalString(i) == DecimalString(j)
    ensures i == j
  {
    DecimalRoundTrip(i);
    DecimalRoundTrip(j);
  }
}
